=== FILE: README.md ===
# KuCoin futures client: order validation, payloads and the order flow

This project models the decision logic of the KuCoin perpetual-futures client
of `pccxl`, a Python exchange library, and proves properties of it in Dafny.
The modelled parts are:

- the order-parameter validators;
- the interpretation of the exchange's response envelope (`_handle_response`)
  and the API path builder (`_create_path`);
- the payloads `create_limit_order` and `create_market_order` assemble;
- `_create_order`, as the sequence of requests it sends and what it returns or
  raises;
- the derivation of the attached stop-loss and take-profit orders;
- the buy/sell inversion table and the dash-free client id.

Modules, one per file:

- `Values` (`values.dfy`): Python values as they reach the client, with
  truthiness written out.
- `Text` (`text.dfy`): `str.upper`, `str.lower` and `str(int)`.
- `Utils` (`utils.dfy`): `SIDE_MAPPING` and `flat_uuid`.
- `Validations` (`validations.dfy`): the eight `validate_*` functions.
- `Dispatch` (`dispatch.dfy`): `_create_path` and `_handle_response`.
- `Payload` (`payload.dfy`): the payload builders, the stop-loss/take-profit
  rewrite and the amount-to-size conversion.
- `Orders` (`orders.dfy`): `_create_order`, `create_limit_order` and
  `create_market_order`.

A call to the client is a `Run`: the requests it sends, in order, and its
outcome, which is either the data it returns or the exception it raises. Two
things are given as parameters:

- The exchange is an oracle `server: nat -> HttpResponse`: the response to the
  k-th request of the call.
- `uuid4: nat -> string` is the rendering of the k-th uuid the call draws.

Python's `None` and `0` amounts behave identically in the source (`if amount:`),
so the amount is a `real` where `0.0` stands for both.

The payload builders are defined key by key: a key is present exactly when it
is required or its argument is truthy. The source's own shape is a dict literal
followed by one `if arg: order[key] = arg` per key. That shape is defined as
well (`MarketAssignments`, `LimitAssignments`), and the two are proved equal.

`create_limit_order` calls `validate_post_only(post_only, time_in_force)`
(`src/pccxl/providers/kucoin/clients/perp.py`, line 223). The function is
declared as `validate_post_only(time_in_force, post_only)`. The model keeps both
as written. `ValidatePostOnly` follows the declaration, and `LimitChecks`
passes the arguments in the swapped order. `PostOnlyCallSite` states what the
call site therefore accepts: a post-only order with time in force "GTC" is
rejected, and one without a time in force passes.

Three behaviours of the code are easy to misread, and the model keeps them
as written:

- The size for a notional amount is never rounded. When the amount is at
  least 1 and the multiplier below 1 it is truncated,
  `int(amount * (1 / multiplier))`; otherwise it is floored,
  `amount // multiplier` (`Payload.ContractSize`).
- `size` is always sent, even as `None`, and a limit order always sends
  `price` (`Payload.LimitRequiredFields`). On its own, the limit payload
  builder adds `visible_size` under iceberg's guard alone
  (`Payload.LimitVisibleSize`). The validation that runs first rejects an
  iceberg without a visible size, so a validated limit order never sends an
  empty one (`Orders.ValidatedVisibleSize`).
- Amount and size are rejected only when both are truthy; neither being set
  passes (`Validations.ValidateAmountSize`).

## Model

| member | source | states |
|---|---|---|
| Validations.ValidateSide | src/pccxl/providers/kucoin/validations.py:13-17 | passes exactly the strings "buy" and "sell"; any other value, of any type, raises the side error |
| Validations.ValidateStop | src/pccxl/providers/kucoin/validations.py:20-40 | a falsy stop always passes. A truthy stop passes iff it is "down" or "up", the price type is TP, MP or IP (an absent type fails), and the stop price is truthy. A bad stop raises the stop error; a valid stop with a price type outside TP, MP and IP (absent included) raises the price-type error; a valid stop and type with a falsy price raise the missing-price error |
| Validations.ValidateStopLossTakeProfit | src/pccxl/providers/kucoin/validations.py:43-52 | raises iff the stop is truthy and at least one of the stop-loss and take-profit prices is truthy |
| Validations.ValidateTimeInForce | src/pccxl/providers/kucoin/validations.py:55-63 | passes iff the value is falsy, "GTC" or "IOC" |
| Validations.ValidatePostOnly | src/pccxl/providers/kucoin/validations.py:66-74 | with the declared parameter order, raises iff post-only is truthy and the time in force is not "GTC" |
| Validations.ValidateHiddenAndIceberg | src/pccxl/providers/kucoin/validations.py:77-84 | raises iff both flags are truthy |
| Validations.ValidateIceberg | src/pccxl/providers/kucoin/validations.py:87-94 | raises iff iceberg is truthy and the visible size is falsy |
| Validations.ValidateAmountSize | src/pccxl/providers/kucoin/validations.py:97-104 | raises iff both amount and size are truthy, so a zero amount or size alongside the other passes |
| Validations.FirstFailure | src/pccxl/providers/kucoin/clients/perp.py:142-152 | validators called one after another: the result passes iff every validator passes; otherwise it is the error of the first validator that raises, and every earlier one passed |
| Text.Upper | src/pccxl/providers/kucoin/clients/perp.py:228 | `symbol.upper()` keeps the length and every letter, and leaves no lower-case letter |
| Text.Lower | src/pccxl/providers/kucoin/clients/perp.py:229 | `side.lower()` keeps the length and every letter, and leaves no upper-case letter |
| Text.LowerIdempotent | src/pccxl/providers/kucoin/clients/perp.py:229 | lower-casing a lower-cased side changes nothing |
| Text.Decimal | src/pccxl/providers/kucoin/clients/perp.py:50 | `str(status_code)` is non-empty and starts with '-' iff the code is negative |
| Text.NatDecimal | src/pccxl/providers/kucoin/clients/perp.py:50 | `str(n)` of a natural number is a non-empty string of decimal digits with no leading zero |
| Text.ParseNatDecimal | src/pccxl/providers/kucoin/clients/perp.py:50 | reading back the decimal rendering of a natural number yields the number |
| Text.NatDecimalStartsWithLeadingDigit | src/pccxl/providers/kucoin/clients/perp.py:50 | the first character of `str(n)` is the leading decimal digit of n |
| Dispatch.CreatePath | src/pccxl/providers/kucoin/clients/perp.py:69-71 | the path starts with "/api/" and ends with "/" followed by the resource path |
| Dispatch.EffectiveVersion | src/pccxl/providers/kucoin/clients/perp.py:70 | the given version when it is truthy, "v1" when it is missing or empty |
| Dispatch.CreatePathRoundTrip | src/pccxl/providers/kucoin/clients/perp.py:69-71 | for a version without a slash, the built path parses back to the version and the resource path |
| Dispatch.CreatePathDefault | src/pccxl/providers/kucoin/clients/perp.py:70-71 | no version, an empty version and "v1" all give "/api/v1/" + path |
| Dispatch.HandleResponse | src/pccxl/providers/kucoin/clients/perp.py:44-67 | a status whose decimal string does not start with '2' is an API error, whatever the body. When the status does start with '2': an unparseable body is a request error, not an API error; a parsed body is an API error iff its `code` is present and not "200000" or its `success` is present and falsy. A 2xx parsed body that passes both envelope checks always yields data: `body["data"]` when that key is present, and the whole body when it is not |
| Dispatch.SuccessStatusIsTwoHundreds | src/pccxl/providers/kucoin/clients/perp.py:50-51 | for three-digit codes the status test is exactly the 2xx class; a negative code never passes |
| Dispatch.SuccessStatusLeadingDigit | src/pccxl/providers/kucoin/clients/perp.py:50 | the status test passes iff the code's leading digit is 2, so codes such as 2 and 2000 also pass |
| Dispatch.EnvelopeExamples | src/pccxl/providers/kucoin/clients/perp.py:55-65 | a success envelope yields its data; code "400001" and `success: false` are API errors |
| Values.Lookup | src/pccxl/providers/kucoin/clients/perp.py:144-159 | `dict.get`, on payloads and on the contract information alike: the stored value, or `None` for a missing key |
| Values.AsNumber | src/pccxl/providers/kucoin/clients/perp.py:161-164 | the values Python arithmetic accepts are exactly booleans, ints and floats; `True` and `False` read as 1 and 0, an int as itself and a float as itself; a number is non-zero iff it is truthy |
| Values.Trunc | src/pccxl/providers/kucoin/clients/perp.py:162 | `int(x)` truncates toward zero, for positive and negative x |
| Utils.InvertSide | src/pccxl/common/utils.py:3-6 | `SIDE_MAPPING.get`: "buy" maps to "sell" and "sell" to "buy" (each iff), there is no entry for any other side, and an inverted side always differs from the original |
| Utils.InvertSideInvolution | src/pccxl/common/utils.py:3-6 | inverting a side twice returns the original side |
| Utils.SideMappingDomain | src/pccxl/common/utils.py:3-6 | the table's domain is exactly {buy, sell} and its range is the same set |
| Utils.StripDashes | src/pccxl/common/utils.py:10 | `replace('-', '')` leaves no dash and keeps the count of every other character |
| Utils.StripDashesAppend | src/pccxl/common/utils.py:10 | removing dashes distributes over concatenation |
| Utils.StripDashesNoDash | src/pccxl/common/utils.py:10 | a string without dashes is unchanged |
| Utils.FlatUuid | src/pccxl/common/utils.py:9-10 | the id has no dash, and stripping dashes from it again changes nothing |
| Utils.FlatUuidOfCanonical | src/pccxl/common/utils.py:9-10 | the canonical 8-4-4-4-12 rendering of a uuid flattens to exactly 32 hex digits |
| Payload.PutEachTruthy | src/pccxl/providers/kucoin/clients/perp.py:235-256 | a run of `if arg: order[key] = arg` adds exactly the keys whose argument is truthy, each with its argument, and changes nothing else |
| Payload.WireNameInjective | src/pccxl/providers/kucoin/clients/perp.py:227-257 | two fields share a JSON key iff they are the same field, so a payload map is exactly the dict the client sends |
| Payload.MarketPayloadIsGuardedAssignments | src/pccxl/providers/kucoin/clients/perp.py:285-309 | the market payload defined key by key equals the source's dict literal followed by its nine guarded assignments |
| Payload.LimitPayloadIsGuardedAssignments | src/pccxl/providers/kucoin/clients/perp.py:227-257 | the limit payload defined key by key equals the source's dict literal, its eleven guarded assignments and the `visible_size` step |
| Payload.MarketRequiredFields | src/pccxl/providers/kucoin/clients/perp.py:285-290 | the market payload always holds symbol, side, type "market" and size (`None` included), never price or `visible_size`, and nothing but those and the shared optional keys |
| Payload.LimitRequiredFields | src/pccxl/providers/kucoin/clients/perp.py:227-233 | the limit payload always holds symbol, side, type "limit", price and size (`None` included), and nothing but those, its optional keys and `visible_size` |
| Payload.MarketPayload | src/pccxl/providers/kucoin/clients/perp.py:285-287 | the market payload holds the upper-cased symbol and the lower-cased side |
| Payload.LimitPayload | src/pccxl/providers/kucoin/clients/perp.py:227-229 | the limit payload holds the upper-cased symbol and the lower-cased side |
| Payload.MarketAgreesWithLimit | src/pccxl/providers/kucoin/clients/perp.py:227-256 | given the same shared arguments, the two payloads hold the same keys with the same values, except for the type and the limit-only keys |
| Payload.MarketOptionalField | src/pccxl/providers/kucoin/clients/perp.py:292-309 | each optional key of the market payload is present, holding its argument, iff that argument is truthy |
| Payload.LimitOptionalField | src/pccxl/providers/kucoin/clients/perp.py:235-256 | each optional key of the limit payload, hidden and iceberg included, is present, holding its argument, iff that argument is truthy |
| Payload.LimitVisibleSize | src/pccxl/providers/kucoin/clients/perp.py:255-257 | `visible_size` is in the limit payload iff iceberg is truthy, and then holds the visible-size argument even when that is falsy |
| Payload.MinimalLimitPayload | src/pccxl/providers/kucoin/clients/perp.py:227-233 | with every optional argument falsy, the limit payload holds just its five required keys |
| Payload.MarketPayloadGuards | src/pccxl/providers/kucoin/clients/perp.py:285-309 | the side, size and stop fields `_create_order` reads from a market payload are the caller's arguments: each stop field is present iff its argument is truthy |
| Payload.LimitPayloadGuards | src/pccxl/providers/kucoin/clients/perp.py:227-257 | the side, size and stop fields `_create_order` reads from a limit payload are the caller's arguments: each stop field is present iff its argument is truthy |
| Payload.Conditional | src/pccxl/providers/kucoin/clients/perp.py:172-190 | an attached order is a copy of the final primary payload with the primary's other keys unchanged. It has a fresh client id, the inverted side (which inverts back to the primary's), stop "down" iff (stop-loss iff the primary buys), the given trigger price, price type "TP" and reduce-only true |
| Payload.StopLossMirrorsTakeProfit | src/pccxl/providers/kucoin/clients/perp.py:172-190 | the stop-loss and take-profit orders of one primary have the same keys and side, opposite trigger directions, and differ only in client id, direction and trigger price |
| Payload.ConditionalExamples | src/pccxl/providers/kucoin/clients/perp.py:176-186 | a buy's stop-loss sells and triggers "down"; a sell's take-profit buys and triggers "down" |
| Payload.ContractSize | src/pccxl/providers/kucoin/clients/perp.py:157-168 | sizing raises iff the contract information is not a dict or its multiplier is missing, not a number, or zero. Otherwise the size is `int(amount / multiplier)` (truncated) when amount ≥ 1 and multiplier < 1, and `amount // multiplier` (floored) otherwise |
| Payload.ScaledSizeIsPositive | src/pccxl/providers/kucoin/clients/perp.py:161-162 | an amount of at least 1 with a multiplier in (0, 1) never sizes to zero contracts |
| Payload.ContractSizeExamples | src/pccxl/providers/kucoin/clients/perp.py:161-164 | amount 2 at multiplier 0.1 is 20 contracts; amount 0.5 at multiplier 2 floors to 0 |
| Orders.ContractsPath | src/pccxl/providers/kucoin/clients/perp.py:194-195 | `contract_info` reads "/api/v1/contracts/" + symbol |
| Orders.OrdersPathIsV1 | src/pccxl/providers/kucoin/clients/perp.py:170 | orders are posted to "/api/v1/orders" |
| Orders.Rejection | src/pccxl/providers/kucoin/clients/perp.py:51-67 | an API-error reply raises `KucoinAPIException` carrying the response; a request-error reply raises `KucoinRequestException` carrying the response text (the "Invalid Response: " message prefix is not modelled) |
| Orders.SendAll | src/pccxl/providers/kucoin/clients/perp.py:170-190 | requests sent in turn stop at the first failure, which is raised. Every request before it succeeded, and none after it is sent. No failure occurs iff every reply carries data, and then all of them are sent |
| Orders.OrderChecks | src/pccxl/providers/kucoin/clients/perp.py:142-152 | `_create_order`'s validation passes iff all of these hold: the side is in the inversion table; the stop fields are valid; no truthy stop comes with a truthy stop-loss or take-profit; and not both amount and size are truthy. An invalid side raises the side error first |
| Orders.ValidSideIsInvertible | src/pccxl/providers/kucoin/clients/perp.py:175 | a side passes `validate_side` iff `SIDE_MAPPING` has an entry for it, so the inversion of a validated side never fails |
| Orders.Plan | src/pccxl/providers/kucoin/clients/perp.py:170-190 | the posts are the primary order first, then one post per truthy stop-loss and take-profit price, all to the orders endpoint |
| Orders.PlanContents | src/pccxl/providers/kucoin/clients/perp.py:172-190 | with a truthy stop-loss price, the second post is the stop-loss order with the first fresh id. With a truthy take-profit price, the last post is the take-profit order with the next id |
| Orders.Submit | src/pccxl/providers/kucoin/clients/perp.py:170-190 | posting a plan sends at least one and at most all of its posts |
| Orders.SubmitContents | src/pccxl/providers/kucoin/clients/perp.py:170-192 | the requests sent are a prefix of the plan, after those already sent. The call succeeds iff every post is answered with data, and then returns the primary's data. Otherwise it raises the failure of the last post sent, every earlier post having succeeded |
| Orders.SubmitShape | src/pccxl/providers/kucoin/clients/perp.py:170-190 | posting extends the requests already sent with the primary first, and posts only to the orders endpoint. It raises no validation error, and on success has sent the whole plan |
| Orders.SubmitAccepted | src/pccxl/providers/kucoin/clients/perp.py:170-192 | when every post is answered with data, the whole plan is sent and the primary's data returned |
| Orders.SubmitRejectedAt | src/pccxl/providers/kucoin/clients/perp.py:170-190 | when post j is the first rejected one, exactly posts 0..j are sent and post j's rejection is raised |
| Orders.WithClientOid | src/pccxl/providers/kucoin/clients/perp.py:154-155 | a payload whose client id is missing or `None` gets the first fresh dash-free id; any other client id and every other key is kept |
| Orders.Sized | src/pccxl/providers/kucoin/clients/perp.py:157-168 | with a truthy amount, the primary's `size` is the contract size computed from the multiplier the contracts read returned, and nothing else changes; with a zero amount the payload is unchanged |
| Orders.FinalPrimary | src/pccxl/providers/kucoin/clients/perp.py:154-168 | the primary as posted: the caller's keys plus a client id, which is the caller's own when it is present and not `None` and the first flattened uuid4 otherwise. With a truthy amount `size` is the computed contract size; with a zero amount the caller's `size` is kept; every other key is unchanged |
| Orders.SizeAndSubmit | src/pccxl/providers/kucoin/clients/perp.py:157-192 | the truthy-amount branch always starts with `GET contracts/{symbol}`. A contracts read that is not data ends the call after that one request, raising that reply's rejection. Contract information that cannot size the order ends it after that one request with the sizing error, before any POST |
| Orders.SizingFailurePostsNothing | src/pccxl/providers/kucoin/clients/perp.py:157-170 | a validated call with a truthy amount whose accepted contract information cannot size the order sends exactly `GET contracts/{symbol}` and raises the sizing error |
| Orders.Place | src/pccxl/providers/kucoin/clients/perp.py:157-192 | after validation something is always sent, and the first request is a GET iff the amount is truthy |
| Orders.SizeAndSubmitContents | src/pccxl/providers/kucoin/clients/perp.py:157-192 | with a truthy amount the first request is `GET contracts/{symbol}`. Every POST goes to the orders endpoint, and no validation error is raised. On success the call has sent that read plus the whole plan |
| Orders.PlaceContents | src/pccxl/providers/kucoin/clients/perp.py:157-192 | after validation, the first request is a GET iff the amount is truthy (the contracts read), and otherwise the primary order. Every POST goes to the orders endpoint, and no validation error is raised. On success the call has sent one request per planned order, plus the read |
| Orders.PlacePosts | src/pccxl/providers/kucoin/clients/perp.py:157-190 | once the order is sized, placing it is posting the plan of the sized primary, after the contracts read when there is one |
| Orders.CreateOrder | src/pccxl/providers/kucoin/clients/perp.py:135-192 | a failed validation sends nothing and raises that validation error |
| Orders.CreateOrderValidatesFirst | src/pccxl/providers/kucoin/clients/perp.py:142-155 | `_create_order` sends nothing iff validation fails, and raises a validation error only then |
| Orders.CreateOrderSends | src/pccxl/providers/kucoin/clients/perp.py:142-192 | a validated call sends something. Its first request is a GET iff the amount is truthy: `GET contracts/{symbol}` then, and otherwise the primary POST with its client id. It posts only to the orders endpoint and raises no validation error. On success it has sent 1 + (GET iff amount) + (stop-loss iff truthy) + (take-profit iff truthy) requests |
| Orders.CreateOrderPosts | src/pccxl/providers/kucoin/clients/perp.py:142-190 | once validation passes and the order could be sized, the call posts the plan of the final primary, after the contracts read iff the amount is truthy |
| Orders.HappyPath | src/pccxl/providers/kucoin/clients/perp.py:135-192 | when validation passes and the responses to the requests the call sends (read, primary, attached orders) all carry data, and the contract information yields a size (with a truthy amount, a dict whose multiplier is a non-zero number), the trace is: the contracts read iff the amount is truthy, the primary, the stop-loss iff its price is truthy, then the take-profit iff its price is truthy. The call returns the primary's response data |
| Orders.AllAccepted | src/pccxl/providers/kucoin/clients/perp.py:170-192 | with the response to every post accepted, all posts are sent and the primary's data is returned |
| Orders.AttachedOrdersFollowPrimary | src/pccxl/providers/kucoin/clients/perp.py:157-190 | an attached order is sent only after the primary order was accepted, and with a truthy amount the orders are posted only after the contracts read succeeded |
| Orders.AttachedFollowPrimaryPlaced | src/pccxl/providers/kucoin/clients/perp.py:157-190 | the same ordering for a validated payload with its client id |
| Orders.StopLossFailureHidesPrimary | src/pccxl/providers/kucoin/clients/perp.py:170-192 | an accepted primary followed by a rejected stop-loss: the call raises the stop-loss rejection after exactly two posts. The take-profit is never sent and the primary's data is not returned |
| Orders.SecondPostRejected | src/pccxl/providers/kucoin/clients/perp.py:170-180 | without an amount, a rejected second post ends the call after exactly the primary and that post |
| Orders.SecondOfTwoRejected | src/pccxl/providers/kucoin/clients/perp.py:170-180 | an accepted first post and a rejected second one: exactly those two are sent, and the second's rejection is raised |
| Orders.LimitChecks | src/pccxl/providers/kucoin/clients/perp.py:222-225 | the limit-order validation passes iff all of these hold: the time in force is falsy, GTC or IOC; a truthy time in force comes with post-only equal to "GTC" (the swapped call); hidden and iceberg are not both truthy; and a truthy iceberg has a truthy visible size. The first failing validator, in the source's order, decides the error: an invalid time in force raises the time-in-force error; the post-only error is raised exactly when the first check passes and the swapped one fails; then hidden with iceberg raises the hidden/iceberg error; then an iceberg without a visible size raises the visible-size error |
| Orders.PostOnlyCallSite | src/pccxl/providers/kucoin/clients/perp.py:223 | the declared function accepts post-only with "GTC" and rejects post-only without a time in force. At the call site, post-only with "GTC" is rejected and post-only without a time in force passes |
| Orders.CreateMarketOrder | src/pccxl/providers/kucoin/clients/perp.py:266-316 | a market order that fails `_create_order`'s validation sends nothing and raises that validation error; anything sent means the validation passed |
| Orders.CreateLimitOrder | src/pccxl/providers/kucoin/clients/perp.py:197-264 | a failed limit validation sends nothing and raises its error; anything sent means the limit validation passed; once it passes, the call is `_create_order` on the limit payload |
| Orders.LimitOrderHappyPath | src/pccxl/providers/kucoin/clients/perp.py:197-264 | when the limit validation and the caller's arguments pass and every response the call reads is accepted, and the contract information yields a size (with a truthy amount, a dict whose multiplier is a non-zero number): the trace is `GET contracts/{SYMBOL}` iff the amount is truthy, followed by the plan of the final limit payload (client id filled in, size computed). The primary order's data is returned |
| Orders.MarketOrderHappyPath | src/pccxl/providers/kucoin/clients/perp.py:266-316 | when the caller's arguments pass validation and every response the call reads is accepted, and the contract information yields a size (with a truthy amount, a dict whose multiplier is a non-zero number): the trace is `GET contracts/{SYMBOL}` iff the amount is truthy, followed by the plan of the final market payload. The primary order's data is returned |
| Orders.ValidatedVisibleSize | src/pccxl/providers/kucoin/clients/perp.py:222-257 | a limit payload that passed the limit validation carries `visible_size` only with a truthy value |
| Orders.OrderEntryPoints | src/pccxl/providers/kucoin/clients/perp.py:259-316 | without an amount, a limit order that sends anything first posts its payload with the client id filled in. A market order sends nothing iff `_create_order`'s validation of its payload fails |
| Orders.ChecksOfGuardedPayload | src/pccxl/providers/kucoin/clients/perp.py:142-152 | validating a payload whose stop fields were added under truthiness guards is validating the arguments they came from |
| Orders.MarketPayloadChecks | src/pccxl/providers/kucoin/clients/perp.py:311-316 | `_create_order` validates a market order exactly as the validators would validate the caller's arguments, with the side lower-cased |
| Orders.LimitPayloadChecks | src/pccxl/providers/kucoin/clients/perp.py:259-264 | `_create_order` validates a limit order exactly as the validators would validate the caller's arguments, with the side lower-cased |

## Left out

- Request signing (`_generate_signature`, `_generate_passphrase`): HMAC-SHA256 and base64 are foreign cryptographic calls.
- The network layer is left out: `requests.request`, `_create_url`, `json.dumps` of the payload and the `time.time()` nonce. The exchange is the `server` oracle, and a request is its verb, path and payload.
- Orders.Rejection: a bad response carries the response text, not the formatted message `Invalid Response: {text}`; the message wording is presentation, not logic.
- The mutation of the class-level `DEFAULT_HEADERS` dict is shared mutable state, not decision logic.
- `uuid.uuid4()` randomness is the `uuid4` oracle. `FlatUuidOfCanonical` states what happens for a canonical rendering.
- Payload.ContractSize: float rounding is not modelled, because the arithmetic is over exact reals. The result keeps the int/float distinction only as far as the branch taken (`int(...)` gives an int, `//` a float).
- The amount is a `real`. The source's `int` amounts, which make `//` return an int, are not distinguished, because only the amount's truthiness and numeric value matter to the model.
- The bare `raise` after sizing is left out: both size formulas produce a value, so it cannot be reached.
- Exceptions are `Failure` variants; the exception classes are not part of this model. A `KucoinAPIException` raised inside the `try` of `_handle_response` is taken not to be a `ValueError`, so it is not turned into a `KucoinRequestException`.
- Dispatch.HandleResponse: a body that parses to JSON that is not an object is not modelled, because `'code' in res` on a list or string has no counterpart in a map.
- Text.Upper: only ASCII letters change case, because Unicode case mapping is outside the model. Text.Lower has the same limit.
- Orders.CreateOrder: it requires a `side` key and a string `symbol`. Both payload builders always provide them (`Payload.MarketPayload`, `Payload.LimitPayload`). A direct call with a dict lacking `side` raises `KeyError` in the source, and that case is not modelled.
- `_create_order` writes the generated client id and the size into the caller's dict. That aliasing is not modelled; the model posts the updated copy.
- `create_limit_order` validates `time_in_force` and `post_only` but never puts them into the payload. The model does the same, so neither is sent.
- Dictionary key order, which affects only the JSON text, is not modelled: a payload is a map.
- The stop-loss uses `SIDE_MAPPING.get(side)` and the take-profit `SIDE_MAPPING[side]`. After `validate_side` both find the side (`Orders.ValidSideIsInvertible`), so both are modelled by `Utils.InvertSide`.

=== FILE: dispatch.dfy ===
/**
 The request dispatcher's pure parts: the API path it builds and the way it
 interprets the exchange's HTTP response envelope. Sending the request,
 signing it and the clock are outside the model; a response is given as its
 status code and its body, either a JSON object or text that does not parse.
 */
module Dispatch {
  import opened Values
  import opened Text

  const DefaultApiVersion: string := "v1"
  const SuccessCode: string := "200000"

  /** The version segment used: the given one when non-empty, "v1" otherwise. */
  function EffectiveVersion(apiVersion: Option<string>): (v: string)
    ensures apiVersion.Some? && apiVersion.value != "" ==> v == apiVersion.value
    ensures apiVersion.None? || apiVersion.value == "" ==> v == DefaultApiVersion
  {
    if apiVersion.Some? && apiVersion.value != "" then apiVersion.value else DefaultApiVersion
  }

  /** `_create_path`: `/api/{version}/{path}`. */
  function CreatePath(path: string, apiVersion: Option<string>): (full: string)
    ensures |full| >= 5 + 1 + |path| && full[..5] == "/api/"
    ensures full[|full| - |path| - 1..] == "/" + path
  {
    "/api/" + EffectiveVersion(apiVersion) + "/" + path
  }

  /** The text before the first '/' of `s`, and what follows that slash. */
  function SplitAtSlash(s: string): (r: Option<(string, string)>)
    ensures r.Some? ==> '/' !in r.value.0 && s == r.value.0 + "/" + r.value.1
    ensures r.None? <==> '/' !in s
    decreases |s|
  {
    if s == [] then None
    else if s[0] == '/' then Some(([], s[1..]))
    else
      match SplitAtSlash(s[1..])
      case None => None
      case Some((before, after)) => Some(([s[0]] + before, after))
  }

  /** Reads a full API path back into its version and resource path; the partner of `CreatePath`. */
  function ParsePath(full: string): Option<(string, string)>
  {
    if |full| < 5 || full[..5] != "/api/" then None else SplitAtSlash(full[5..])
  }

  /** Splitting a slash-free prefix off `a + "/" + b` recovers `a` and `b`. */
  lemma {:induction false} SplitAtSlashJoin(a: string, b: string)
    requires '/' !in a
    ensures SplitAtSlash(a + "/" + b) == Some((a, b))
    decreases |a|
  {
    if a == [] {
      assert a + "/" + b == "/" + b;
    } else {
      assert (a + "/" + b)[1..] == a[1..] + "/" + b;
      assert a[0] != '/' && '/' !in a[1..];
      SplitAtSlashJoin(a[1..], b);
      assert [a[0]] + a[1..] == a;
    }
  }

  /** Whenever the version has no slash, the path built for it reads back to version and path. */
  lemma CreatePathRoundTrip(path: string, apiVersion: Option<string>)
    requires '/' !in EffectiveVersion(apiVersion)
    ensures ParsePath(CreatePath(path, apiVersion)) == Some((EffectiveVersion(apiVersion), path))
  {
    var v := EffectiveVersion(apiVersion);
    var full := CreatePath(path, apiVersion);
    assert full[5..] == v + "/" + path;
    SplitAtSlashJoin(v, path);
  }

  /** A missing and an empty version both build the "v1" path. */
  lemma CreatePathDefault(path: string)
    ensures CreatePath(path, None) == "/api/v1/" + path
    ensures CreatePath(path, Some("")) == CreatePath(path, None)
    ensures CreatePath(path, Some("v1")) == CreatePath(path, None)
  {
  }

  /** A response body: a parsed JSON object, or text that is not valid JSON. */
  datatype Body = Json(fields: map<string, Value>) | Unparseable(text: string)

  datatype HttpResponse = HttpResponse(status: int, body: Body)

  /** What `_handle_response` produces: the data, or one of the two exceptions it raises. */
  datatype Reply =
    | Data(value: Value)
    | ApiError(response: HttpResponse)
    | RequestError(text: string)

  /** `str(status_code).startswith('2')`. */
  predicate IsSuccessStatus(status: int)
  {
    Decimal(status)[0] == '2'
  }

  /** For the three-digit codes HTTP uses, the test is exactly the 2xx class; a negative code never passes. */
  lemma SuccessStatusIsTwoHundreds(status: int)
    ensures 100 <= status < 1000 ==> (IsSuccessStatus(status) <==> 200 <= status < 300)
    ensures status < 0 ==> !IsSuccessStatus(status)
  {
    if 100 <= status < 1000 {
      NatDecimalStartsWithLeadingDigit(status);
      LeadingDigitOfThreeDigits(status);
    }
  }

  /** The test reads only the leading digit, so codes such as 2 or 2000 pass it too. */
  lemma SuccessStatusLeadingDigit(status: nat)
    ensures IsSuccessStatus(status) <==> LeadingDigit(status) == 2
  {
    NatDecimalStartsWithLeadingDigit(status);
  }

  /** The envelope's own error signals: a `code` other than "200000", or a falsy `success`. */
  predicate EnvelopeRejects(fields: map<string, Value>)
  {
    || ("code" in fields && fields["code"] != Str(SuccessCode))
    || ("success" in fields && !Truthy(fields["success"]))
  }

  /** `_handle_response`. */
  function HandleResponse(response: HttpResponse): (r: Reply)
    ensures !IsSuccessStatus(response.status) ==> r == ApiError(response)
    ensures IsSuccessStatus(response.status) && response.body.Unparseable? ==>
      r == RequestError(response.body.text)
    ensures IsSuccessStatus(response.status) && response.body.Json? ==>
      (r.ApiError? <==> EnvelopeRejects(response.body.fields))
    ensures IsSuccessStatus(response.status) && response.body.Json? && !EnvelopeRejects(response.body.fields) ==>
      r.Data?
    ensures r.ApiError? ==> r.response == response
    ensures r.Data? ==> IsSuccessStatus(response.status) && response.body.Json?
    ensures r.Data? ==>
      var fields := response.body.fields;
      ("data" in fields ==> r.value == fields["data"]) && ("data" !in fields ==> r.value == Dict(fields))
  {
    if !IsSuccessStatus(response.status) then ApiError(response)
    else
      match response.body
      case Unparseable(text) => RequestError(text)
      case Json(fields) =>
        if "code" in fields && fields["code"] != Str(SuccessCode) then ApiError(response)
        else if "success" in fields && !Truthy(fields["success"]) then ApiError(response)
        else if "data" in fields then Data(fields["data"])
        else Data(Dict(fields))
  }

  /** A success envelope with `data` yields just the data; code "400001" is an API error. */
  lemma EnvelopeExamples(data: Value)
    ensures HandleResponse(HttpResponse(200, Json(map["code" := Str("200000"), "data" := data]))) == Data(data)
    ensures HandleResponse(HttpResponse(200, Json(map["code" := Str("400001")]))).ApiError?
    ensures HandleResponse(HttpResponse(200, Json(map["success" := Bool(false), "data" := data]))).ApiError?
  {
    SuccessStatusIsTwoHundreds(200);
  }
}

=== FILE: orders.dfy ===
/**
 The order-placing flow of the futures client. `create_limit_order` and
 `create_market_order` validate their own arguments, build the payload and hand
 it to `_create_order`, which validates the payload, fills in a client id,
 converts a notional amount into a contract size, sends the primary order and
 then the attached stop-loss and take-profit orders.

 A call is modelled as the requests it sends, in order, together with what it
 returns or raises. The exchange is an oracle: `server(k)` is the response to
 the k-th request of the call. The random ids are an oracle too: `uuid4(k)` is
 the rendering of the k-th uuid the call draws.
 */
module Orders {
  import opened Values
  import opened Text
  import opened Utils
  import opened Validations
  import opened Dispatch
  import opened Payload

  datatype Method = Get | Post

  /** One request: its HTTP verb, its full API path and the JSON object it carries (`{}` for a GET). */
  datatype Request = Request(verb: Method, path: string, data: Order)

  /** Why a call raised. */
  datatype Failure =
    | Invalid(error: ValidationError)    // a validator raised before any request
    | Api(response: HttpResponse)        // `KucoinAPIException`
    | BadResponse(text: string)          // `KucoinRequestException`
    | SizingFault                        // the contract information could not size the order

  datatype Outcome = Ok(value: Value) | Err(failure: Failure)

  /** What one call does: the requests it sends, in order, and what it returns or raises. */
  datatype Run = Run(trace: seq<Request>, outcome: Outcome)

  /** The path every order is posted to. */
  const OrdersPath: string := CreatePath("orders", None)

  /** The path `contract_info` reads a symbol's contract details from. */
  function ContractsPath(symbol: string): (p: string)
    ensures p == "/api/v1/contracts/" + symbol
  {
    CreatePath("contracts/" + symbol, None)
  }

  lemma OrdersPathIsV1()
    ensures OrdersPath == "/api/v1/orders"
  {
  }

  /** 0 or 1. */
  function Count(b: bool): (n: nat)
    ensures n <= 1 && (n == 1 <==> b)
  {
    if b then 1 else 0
  }

  /** The k-th response of the call carries data, so the request it answers succeeded. */
  predicate Accepted(server: nat -> HttpResponse, k: nat)
  {
    HandleResponse(server(k)).Data?
  }

  /** The exception a reply that is not data raises. */
  function Rejection(reply: Reply): (f: Failure)
    requires !reply.Data?
    ensures reply.ApiError? ==> f == Api(reply.response)
    ensures reply.RequestError? ==> f == BadResponse(reply.text)
  {
    match reply
    case ApiError(response) => Api(response)
    case RequestError(text) => BadResponse(text)
  }

  /** How many of a batch of requests went out, and the exception that cut the batch short, if any. */
  datatype Sent = Sent(count: nat, failure: Option<Failure>)

  /** The replies `_handle_response` makes of the exchange's responses, in order. */
  function Replies(server: nat -> HttpResponse): nat -> Reply
  {
    (k: nat) => HandleResponse(server(k))
  }

  /**
   Sending `planned` requests one after another, the first answered by reply
   `next`: each is sent only when every earlier one succeeded, and the first
   failure is raised.
   */
  function SendAll(planned: nat, next: nat, replies: nat -> Reply): (s: Sent)
    ensures s.count <= planned
    ensures s.failure.None? <==> forall k :: next <= k < next + planned ==> replies(k).Data?
    ensures s.failure.None? ==> s.count == planned
    ensures s.failure.Some? ==>
      && 1 <= s.count
      && (forall k :: next <= k < next + s.count - 1 ==> replies(k).Data?)
      && !replies(next + s.count - 1).Data?
      && s.failure.value == Rejection(replies(next + s.count - 1))
    decreases planned
  {
    if planned == 0 then Sent(0, None)
    else if !replies(next).Data? then Sent(1, Some(Rejection(replies(next))))
    else
      var rest := SendAll(planned - 1, next + 1, replies);
      Sent(rest.count + 1, rest.failure)
  }

  /**
   The validation `_create_order` runs before anything else: the side, the
   stop fields of the payload, the stop against the attached orders, and the
   notional amount against an explicit size, in that order.
   */
  function OrderChecks(order: Order, amount: real, slPrice: Value, tpPrice: Value): (c: Check)
    requires Side in order
    ensures c == Pass <==>
      && HasInvertibleSide(order)
      && ValidateStop(Lookup(order, Stop), Lookup(order, StopPrice), Lookup(order, StopPriceType)) == Pass
      && !(Truthy(Lookup(order, Stop)) && (Truthy(slPrice) || Truthy(tpPrice)))
      && !(amount != 0.0 && Truthy(Lookup(order, Size)))
    ensures !HasInvertibleSide(order) ==> c == Fail(SideNotAllowed)
  {
    ValidSideIsInvertible(order);
    var checks := [
      ValidateSide(order[Side]),
      ValidateStop(Lookup(order, Stop), Lookup(order, StopPrice), Lookup(order, StopPriceType)),
      ValidateStopLossTakeProfit(Lookup(order, Stop), slPrice, tpPrice),
      ValidateAmountSize(Real(amount), Lookup(order, Size))];
    assert checks[0] == ValidateSide(order[Side]);
    assert checks[1] == ValidateStop(Lookup(order, Stop), Lookup(order, StopPrice), Lookup(order, StopPriceType));
    assert checks[2] == ValidateStopLossTakeProfit(Lookup(order, Stop), slPrice, tpPrice);
    assert checks[3] == ValidateAmountSize(Real(amount), Lookup(order, Size));
    FirstFailure(checks)
  }

  /** A side value passes `validate_side` exactly when the inversion table covers it. */
  lemma ValidSideIsInvertible(order: Order)
    requires Side in order
    ensures ValidateSide(order[Side]) == Pass <==> HasInvertibleSide(order)
  {
    SideMappingDomain();
  }

  /** Every POST of a trace goes to the orders endpoint. */
  predicate PostsToOrders(trace: seq<Request>)
  {
    forall i :: 0 <= i < |trace| && trace[i].verb == Post ==> trace[i].path == OrdersPath
  }

  /** The request posting one order. */
  function PostOrder(order: Order): Request
  {
    Request(Post, OrdersPath, order)
  }

  /**
   The orders a call posts once the primary payload is final: the primary,
   then the stop-loss when its price is truthy, then the take-profit when its
   price is truthy. Each attached order draws the next fresh id, from `ids` on.
   */
  function Plan(order: Order, slPrice: Value, tpPrice: Value, uuid4: nat -> string, ids: nat): (posts: seq<Request>)
    requires HasInvertibleSide(order)
    ensures |posts| == 1 + Count(Truthy(slPrice)) + Count(Truthy(tpPrice))
    ensures posts[0] == PostOrder(order)
    ensures PostsToOrders(posts)
  {
    var stopLoss :=
      if Truthy(slPrice) then [PostOrder(Conditional(order, StopLoss, slPrice, FlatUuid(uuid4(ids))))] else [];
    var takeProfit :=
      if Truthy(tpPrice)
      then [PostOrder(Conditional(order, TakeProfit, tpPrice, FlatUuid(uuid4(ids + Count(Truthy(slPrice))))))]
      else [];
    [PostOrder(order)] + stopLoss + takeProfit
  }

  /**
   The attached orders of a plan: the stop-loss right after the primary, with
   the first fresh id, and the take-profit last, with the id after that.
   */
  lemma PlanContents(order: Order, slPrice: Value, tpPrice: Value, uuid4: nat -> string, ids: nat)
    requires HasInvertibleSide(order)
    ensures var posts := Plan(order, slPrice, tpPrice, uuid4, ids);
      Truthy(slPrice) ==> posts[1] == PostOrder(Conditional(order, StopLoss, slPrice, FlatUuid(uuid4(ids))))
    ensures var posts := Plan(order, slPrice, tpPrice, uuid4, ids);
      Truthy(tpPrice) ==>
        posts[|posts| - 1] == PostOrder(Conditional(order, TakeProfit, tpPrice, FlatUuid(uuid4(ids + Count(Truthy(slPrice))))))
  {
  }

  /**
   Posting the planned orders after the requests already `sent`, the first
   answered by reply `next`: the posts go out one by one until one is
   rejected; the call returns the first (primary) order's data once every
   post succeeded, and raises the first failure otherwise.
   */
  function Submit(posts: seq<Request>, replies: nat -> Reply, next: nat, sent: seq<Request>): (run: Run)
    requires posts != []
    ensures |sent| < |run.trace| <= |sent| + |posts|
  {
    var s := SendAll(|posts|, next, replies);
    if s.failure.Some? then Run(sent + posts[..s.count], Err(s.failure.value))
    else
      assert replies(next).Data?;
      Run(sent + posts, Ok(replies(next).value))
  }

  /**
   What `Submit` sends and returns: a non-empty prefix of the posts after the
   requests already sent; success exactly when every post is answered with
   data, and then the first post's data; otherwise the failure of the last post
   sent, every earlier post having succeeded.
   */
  lemma SubmitContents(posts: seq<Request>, replies: nat -> Reply, next: nat, sent: seq<Request>)
    requires posts != []
    ensures var run := Submit(posts, replies, next, sent);
      && run.trace == sent + posts[..|run.trace| - |sent|]
      && (PostsToOrders(sent) && PostsToOrders(posts) ==> PostsToOrders(run.trace))
      && (run.outcome.Ok? <==> forall k :: next <= k < next + |posts| ==> replies(k).Data?)
      && (run.outcome.Ok? ==> run.trace == sent + posts && replies(next) == Data(run.outcome.value))
      && (forall k :: next <= k < next + |run.trace| - |sent| - 1 ==> replies(k).Data?)
      && (run.outcome.Err? ==>
            var last := next + |run.trace| - |sent| - 1;
            !replies(last).Data? && run.outcome.failure == Rejection(replies(last)))
  {
    var s := SendAll(|posts|, next, replies);
    var run := Submit(posts, replies, next, sent);
    if s.failure.None? {
      assert posts[..|posts|] == posts;
    }
    assert run.trace == sent + posts[..s.count];
    if PostsToOrders(sent) && PostsToOrders(posts) {
      forall i | 0 <= i < |run.trace| && run.trace[i].verb == Post
        ensures run.trace[i].path == OrdersPath
      {
        if i >= |sent| {
          assert run.trace[i] == posts[i - |sent|];
        }
      }
    }
  }

  /** When every planned post is answered with data, all of them are sent and the first one's data is returned. */
  lemma SubmitAccepted(posts: seq<Request>, replies: nat -> Reply, next: nat, sent: seq<Request>)
    requires posts != []
    requires forall k :: next <= k < next + |posts| ==> replies(k).Data?
    ensures replies(next).Data?
    ensures Submit(posts, replies, next, sent) == Run(sent + posts, Ok(replies(next).value))
  {
    SubmitContents(posts, replies, next, sent);
  }

  /**
   When the post at position `j` is the first one rejected, exactly the posts
   up to it are sent and its rejection is raised.
   */
  lemma SubmitRejectedAt(posts: seq<Request>, replies: nat -> Reply, next: nat, sent: seq<Request>, j: nat)
    requires j < |posts|
    requires forall k :: next <= k < next + j ==> replies(k).Data?
    requires !replies(next + j).Data?
    ensures Submit(posts, replies, next, sent) == Run(sent + posts[..j + 1], Err(Rejection(replies(next + j))))
  {
    SubmitContents(posts, replies, next, sent);
    var run := Submit(posts, replies, next, sent);
    var last := next + |run.trace| - |sent| - 1;
    assert !run.outcome.Ok?;
    assert last == next + j;
  }

  /** The primary payload with a fresh client id when it has none (a missing key or `None`). */
  function WithClientOid(order: Order, uuid4: nat -> string): (o: Order)
    ensures o.Keys == order.Keys + {ClientOid}
    ensures forall k :: k in order && k != ClientOid ==> o[k] == order[k]
    ensures Lookup(order, ClientOid) != Null ==> o[ClientOid] == order[ClientOid]
    ensures Lookup(order, ClientOid) == Null ==> o[ClientOid] == Str(FlatUuid(uuid4(0)))
    ensures o[ClientOid] != Null
  {
    if Lookup(order, ClientOid) == Null then order[ClientOid := Str(FlatUuid(uuid4(0)))] else order
  }

  /** How many fresh ids the client-id step drew. */
  function IdsDrawn(order: Order): nat
  {
    Count(Lookup(order, ClientOid) == Null)
  }

  /** The request `contract_info` sends for the payload's symbol. */
  function ContractInfoRequest(primary: Order): Request
    requires Symbol in primary && primary[Symbol].Str?
  {
    Request(Get, ContractsPath(primary[Symbol].s), map[])
  }

  /**
   The truthy-amount branch of `_create_order`: `GET contracts/{symbol}`, the
   size computed from the multiplier it returns, then the planned posts.
   */
  function SizeAndSubmit(primary: Order, amount: real, slPrice: Value, tpPrice: Value,
                         uuid4: nat -> string, ids: nat, server: nat -> HttpResponse): (run: Run)
    requires HasInvertibleSide(primary) && Symbol in primary && primary[Symbol].Str?
    requires amount != 0.0
    ensures run.trace != [] && run.trace[0] == ContractInfoRequest(primary)
    ensures !Accepted(server, 0) ==>
      run == Run([ContractInfoRequest(primary)], Err(Rejection(HandleResponse(server(0)))))
    ensures Accepted(server, 0) && ContractSize(amount, HandleResponse(server(0)).value).None? ==>
      run == Run([ContractInfoRequest(primary)], Err(SizingFault))
  {
    var reply := HandleResponse(server(0));
    if !reply.Data? then Run([ContractInfoRequest(primary)], Err(Rejection(reply)))
    else
      match ContractSize(amount, reply.value)
      case None => Run([ContractInfoRequest(primary)], Err(SizingFault))
      case Some(_) =>
        var posts := Plan(Sized(primary, amount, server), slPrice, tpPrice, uuid4, ids);
        SubmitShape(posts, Replies(server), 1, [ContractInfoRequest(primary)]);
        Submit(posts, Replies(server), 1, [ContractInfoRequest(primary)])
  }

  /**
   What `_create_order` does once validation passed and the primary payload
   has its client id: read the contract information when the amount is
   truthy and size the order from it, then post the planned orders.
   */
  function Place(primary: Order, amount: real, slPrice: Value, tpPrice: Value,
                 uuid4: nat -> string, ids: nat, server: nat -> HttpResponse): (run: Run)
    requires HasInvertibleSide(primary) && Symbol in primary && primary[Symbol].Str?
    ensures run.trace != [] && (run.trace[0].verb == Get <==> amount != 0.0)
  {
    if amount == 0.0 then
      var posts := Plan(primary, slPrice, tpPrice, uuid4, ids);
      SubmitShape(posts, Replies(server), 0, []);
      Submit(posts, Replies(server), 0, [])
    else SizeAndSubmit(primary, amount, slPrice, tpPrice, uuid4, ids, server)
  }

  /**
   The shape of any `Submit` run: it extends the requests already sent,
   posts only where the plan posts, raises only an exchange failure, and on
   success has sent every planned post.
   */
  lemma SubmitShape(posts: seq<Request>, replies: nat -> Reply, next: nat, sent: seq<Request>)
    requires posts != []
    ensures var run := Submit(posts, replies, next, sent);
      && |run.trace| > |sent| && run.trace[..|sent|] == sent && run.trace[|sent|] == posts[0]
      && (PostsToOrders(sent) && PostsToOrders(posts) ==> PostsToOrders(run.trace))
      && (run.outcome.Ok? ==> |run.trace| == |sent| + |posts|)
      && (run.outcome.Err? ==> !run.outcome.failure.Invalid?)
  {
    SubmitContents(posts, replies, next, sent);
    var run := Submit(posts, replies, next, sent);
    assert run.trace[..|sent|] == (sent + posts[..|run.trace| - |sent|])[..|sent|];
  }

  /**
   The sized branch starts with the contract-information request, posts only
   to the orders endpoint, raises nothing but an exchange or sizing failure,
   and on success has sent that request and every planned order.
   */
  lemma SizeAndSubmitContents(primary: Order, amount: real, slPrice: Value, tpPrice: Value,
                              uuid4: nat -> string, ids: nat, server: nat -> HttpResponse)
    requires HasInvertibleSide(primary) && Symbol in primary && primary[Symbol].Str?
    requires amount != 0.0
    ensures var run := SizeAndSubmit(primary, amount, slPrice, tpPrice, uuid4, ids, server);
      && run.trace != [] && run.trace[0] == ContractInfoRequest(primary)
      && (run.outcome.Ok? ==> |run.trace| == 2 + Count(Truthy(slPrice)) + Count(Truthy(tpPrice)))
      && PostsToOrders(run.trace)
      && (run.outcome.Err? ==> !run.outcome.failure.Invalid?)
  {
    var info := ContractInfoRequest(primary);
    assert PostsToOrders([info]);
    if Accepted(server, 0) && ContractSize(amount, HandleResponse(server(0)).value).Some? {
      var sized := Sized(primary, amount, server);
      var posts := Plan(sized, slPrice, tpPrice, uuid4, ids);
      assert SizeAndSubmit(primary, amount, slPrice, tpPrice, uuid4, ids, server)
          == Submit(posts, Replies(server), 1, [info]);
      SubmitShape(posts, Replies(server), 1, [info]);
    }
  }

  /**
   After validation: the first request is the contract-information read
   exactly when the amount is truthy, and otherwise the primary order; every
   POST goes to the orders endpoint; no validation error is raised; and a
   successful call has sent one request per planned order, plus the read.
   */
  lemma PlaceContents(primary: Order, amount: real, slPrice: Value, tpPrice: Value,
                      uuid4: nat -> string, ids: nat, server: nat -> HttpResponse)
    requires HasInvertibleSide(primary) && Symbol in primary && primary[Symbol].Str?
    ensures var run := Place(primary, amount, slPrice, tpPrice, uuid4, ids, server);
      && run.trace != []
      && (run.trace[0].verb == Get <==> amount != 0.0)
      && (amount != 0.0 ==> run.trace[0] == ContractInfoRequest(primary))
      && (amount == 0.0 ==> run.trace[0] == PostOrder(primary))
      && (run.outcome.Ok? ==>
            |run.trace| == Count(amount != 0.0) + 1 + Count(Truthy(slPrice)) + Count(Truthy(tpPrice)))
      && PostsToOrders(run.trace)
      && (run.outcome.Err? ==> !run.outcome.failure.Invalid?)
  {
    if amount == 0.0 {
      var posts := Plan(primary, slPrice, tpPrice, uuid4, ids);
      assert Place(primary, amount, slPrice, tpPrice, uuid4, ids, server) == Submit(posts, Replies(server), 0, []);
      SubmitShape(posts, Replies(server), 0, []);
    } else {
      SizeAndSubmitContents(primary, amount, slPrice, tpPrice, uuid4, ids, server);
    }
  }

  /**
   `_create_order`. The payload must hold a side and a string symbol, as the
   payload builders guarantee. A failed validation sends nothing; otherwise a
   truthy amount first reads the contract information, and then the orders of
   `Plan` are posted until one fails.
   */
  function CreateOrder(order: Order, amount: real, slPrice: Value, tpPrice: Value,
                       uuid4: nat -> string, server: nat -> HttpResponse): (run: Run)
    requires Side in order && Symbol in order && order[Symbol].Str?
    ensures OrderChecks(order, amount, slPrice, tpPrice) != Pass ==>
      run == Run([], Err(Invalid(OrderChecks(order, amount, slPrice, tpPrice).error)))
  {
    var check := OrderChecks(order, amount, slPrice, tpPrice);
    if check.Fail? then Run([], Err(Invalid(check.error)))
    else Place(WithClientOid(order, uuid4), amount, slPrice, tpPrice, uuid4, IdsDrawn(order), server)
  }

  /**
   A call that passes validation sends something, starts with the
   contract-information read exactly when the amount is truthy (and with the
   primary order, its client id filled in, otherwise), posts only to the
   orders endpoint, and raises no validation error; on success it has sent one
   request per planned order, plus the read.
   */
  lemma CreateOrderSends(order: Order, amount: real, slPrice: Value, tpPrice: Value,
                         uuid4: nat -> string, server: nat -> HttpResponse)
    requires Side in order && Symbol in order && order[Symbol].Str?
    requires OrderChecks(order, amount, slPrice, tpPrice) == Pass
    ensures var run := CreateOrder(order, amount, slPrice, tpPrice, uuid4, server);
      && run.trace != []
      && (run.trace[0].verb == Get <==> amount != 0.0)
      && (amount != 0.0 ==> run.trace[0] == Request(Get, ContractsPath(order[Symbol].s), map[]))
      && (amount == 0.0 ==> run.trace[0] == PostOrder(WithClientOid(order, uuid4)))
      && (run.outcome.Ok? ==>
            |run.trace| == Count(amount != 0.0) + 1 + Count(Truthy(slPrice)) + Count(Truthy(tpPrice)))
      && PostsToOrders(run.trace)
      && (run.outcome.Err? ==> !run.outcome.failure.Invalid?)
  {
    var primary := WithClientOid(order, uuid4);
    assert HasInvertibleSide(primary) && primary[Symbol] == order[Symbol];
    PlaceContents(primary, amount, slPrice, tpPrice, uuid4, IdsDrawn(order), server);
  }

  /** A call sends nothing exactly when validation fails, and a validation error is raised only then. */
  lemma CreateOrderValidatesFirst(order: Order, amount: real, slPrice: Value, tpPrice: Value,
                                  uuid4: nat -> string, server: nat -> HttpResponse)
    requires Side in order && Symbol in order && order[Symbol].Str?
    ensures var run := CreateOrder(order, amount, slPrice, tpPrice, uuid4, server);
      && (run.trace == [] <==> OrderChecks(order, amount, slPrice, tpPrice) != Pass)
      && (run.outcome.Err? && run.outcome.failure.Invalid? ==> run.trace == [])
  {
    if OrderChecks(order, amount, slPrice, tpPrice) == Pass {
      CreateOrderSends(order, amount, slPrice, tpPrice, uuid4, server);
    }
  }

  /** The primary payload as posted: its size computed from the contract information when the amount is truthy. */
  function Sized(primary: Order, amount: real, server: nat -> HttpResponse): (o: Order)
    requires amount != 0.0 ==> Accepted(server, 0) && ContractSize(amount, HandleResponse(server(0)).value).Some?
    ensures o.Keys == primary.Keys + (if amount != 0.0 then {Size} else {})
    ensures forall k :: k in primary && k != Size ==> o[k] == primary[k]
    ensures HasInvertibleSide(primary) ==> HasInvertibleSide(o)
    ensures amount == 0.0 ==> o == primary
    ensures amount != 0.0 ==> o[Size] == ContractSize(amount, HandleResponse(server(0)).value).value
  {
    if amount == 0.0 then primary
    else primary[Size := ContractSize(amount, HandleResponse(server(0)).value).value]
  }

  /**
   The primary payload as finally posted: with its client id, and with the
   size computed from the contract information when the amount is truthy.
   */
  function FinalPrimary(order: Order, amount: real, uuid4: nat -> string, server: nat -> HttpResponse): (o: Order)
    requires amount != 0.0 ==> Accepted(server, 0) && ContractSize(amount, HandleResponse(server(0)).value).Some?
    ensures o.Keys == order.Keys + {ClientOid} + (if amount != 0.0 then {Size} else {})
    ensures o[ClientOid] != Null
    ensures forall k :: k in order && k != ClientOid && k != Size ==> o[k] == order[k]
    ensures Lookup(order, ClientOid) != Null ==> o[ClientOid] == order[ClientOid]
    ensures Lookup(order, ClientOid) == Null ==> o[ClientOid] == Str(FlatUuid(uuid4(0)))
    ensures amount == 0.0 && Size in order ==> o[Size] == order[Size]
    ensures amount != 0.0 ==> o[Size] == ContractSize(amount, HandleResponse(server(0)).value).value
  {
    Sized(WithClientOid(order, uuid4), amount, server)
  }

  /** Once the contract information sized the order, `Place` is the posting of the sized plan. */
  lemma PlacePosts(primary: Order, amount: real, slPrice: Value, tpPrice: Value,
                   uuid4: nat -> string, ids: nat, server: nat -> HttpResponse)
    requires HasInvertibleSide(primary) && Symbol in primary && primary[Symbol].Str?
    requires amount != 0.0 ==> Accepted(server, 0) && ContractSize(amount, HandleResponse(server(0)).value).Some?
    ensures HasInvertibleSide(Sized(primary, amount, server))
    ensures Place(primary, amount, slPrice, tpPrice, uuid4, ids, server) ==
      Submit(Plan(Sized(primary, amount, server), slPrice, tpPrice, uuid4, ids), Replies(server), Count(amount != 0.0),
             if amount != 0.0 then [ContractInfoRequest(primary)] else [])
  {
  }

  /** Once validation passes and the order could be sized, the call is the posting of its plan. */
  lemma CreateOrderPosts(order: Order, amount: real, slPrice: Value, tpPrice: Value,
                         uuid4: nat -> string, server: nat -> HttpResponse)
    requires Side in order && Symbol in order && order[Symbol].Str?
    requires OrderChecks(order, amount, slPrice, tpPrice) == Pass
    requires amount != 0.0 ==> Accepted(server, 0) && ContractSize(amount, HandleResponse(server(0)).value).Some?
    ensures HasInvertibleSide(FinalPrimary(order, amount, uuid4, server))
    ensures CreateOrder(order, amount, slPrice, tpPrice, uuid4, server) ==
      Submit(Plan(FinalPrimary(order, amount, uuid4, server), slPrice, tpPrice, uuid4, IdsDrawn(order)),
             Replies(server), Count(amount != 0.0),
             if amount != 0.0 then [Request(Get, ContractsPath(order[Symbol].s), map[])] else [])
  {
    var primary := WithClientOid(order, uuid4);
    assert HasInvertibleSide(primary) && primary[Symbol] == order[Symbol];
    assert CreateOrder(order, amount, slPrice, tpPrice, uuid4, server)
        == Place(primary, amount, slPrice, tpPrice, uuid4, IdsDrawn(order), server);
    PlacePosts(primary, amount, slPrice, tpPrice, uuid4, IdsDrawn(order), server);
  }

  /**
   When validation passes and every reply carries data (and the contract
   information sizes the order), the call reads the contract information iff
   the amount is truthy, posts exactly the planned orders and returns the
   primary order's data.
   */
  lemma HappyPath(order: Order, amount: real, slPrice: Value, tpPrice: Value,
                  uuid4: nat -> string, server: nat -> HttpResponse)
    requires Side in order && Symbol in order && order[Symbol].Str?
    requires OrderChecks(order, amount, slPrice, tpPrice) == Pass
    requires forall k: nat :: k < Count(amount != 0.0) + 1 + Count(Truthy(slPrice)) + Count(Truthy(tpPrice)) ==>
      Accepted(server, k)
    requires amount != 0.0 ==> Accepted(server, 0) && ContractSize(amount, HandleResponse(server(0)).value).Some?
    ensures HasInvertibleSide(FinalPrimary(order, amount, uuid4, server))
    ensures var run := CreateOrder(order, amount, slPrice, tpPrice, uuid4, server);
      var info := if amount != 0.0 then [Request(Get, ContractsPath(order[Symbol].s), map[])] else [];
      && run.trace == info + Plan(FinalPrimary(order, amount, uuid4, server), slPrice, tpPrice, uuid4, IdsDrawn(order))
      && run.outcome.Ok?
      && HandleResponse(server(Count(amount != 0.0))) == Data(run.outcome.value)
  {
    CreateOrderPosts(order, amount, slPrice, tpPrice, uuid4, server);
    var posts := Plan(FinalPrimary(order, amount, uuid4, server), slPrice, tpPrice, uuid4, IdsDrawn(order));
    var info := if amount != 0.0 then [Request(Get, ContractsPath(order[Symbol].s), map[])] else [];
    AllAccepted(posts, server, Count(amount != 0.0), info);
  }

  /** With every response to the posts accepted, `Submit` sends every post and returns the first one's data. */
  lemma AllAccepted(posts: seq<Request>, server: nat -> HttpResponse, next: nat, sent: seq<Request>)
    requires posts != []
    requires forall k: nat :: next <= k < next + |posts| ==> Accepted(server, k)
    ensures var run := Submit(posts, Replies(server), next, sent);
      && run.trace == sent + posts
      && run.outcome.Ok?
      && HandleResponse(server(next)) == Data(run.outcome.value)
  {
    forall k | next <= k < next + |posts|
      ensures Replies(server)(k).Data?
    {
      assert Accepted(server, k);
    }
    SubmitAccepted(posts, Replies(server), next, sent);
  }

  /**
   A validated call with a truthy amount whose contract information arrives
   but cannot size the order (not a dict, or a missing, non-numeric or zero
   multiplier) raises after the contracts read and posts nothing.
   */
  lemma SizingFailurePostsNothing(order: Order, amount: real, slPrice: Value, tpPrice: Value,
                                  uuid4: nat -> string, server: nat -> HttpResponse)
    requires Side in order && Symbol in order && order[Symbol].Str?
    requires OrderChecks(order, amount, slPrice, tpPrice) == Pass
    requires amount != 0.0 && Accepted(server, 0)
    requires ContractSize(amount, HandleResponse(server(0)).value).None?
    ensures CreateOrder(order, amount, slPrice, tpPrice, uuid4, server)
         == Run([Request(Get, ContractsPath(order[Symbol].s), map[])], Err(SizingFault))
  {
    var primary := WithClientOid(order, uuid4);
    ValidSideIsInvertible(order);
    assert HasInvertibleSide(primary) && primary[Symbol] == order[Symbol];
  }

  /**
   An attached order is only ever sent after the primary order succeeded, and
   the contract information is read before anything is posted.
   */
  lemma AttachedOrdersFollowPrimary(order: Order, amount: real, slPrice: Value, tpPrice: Value,
                                    uuid4: nat -> string, server: nat -> HttpResponse)
    requires Side in order && Symbol in order && order[Symbol].Str?
    ensures var run := CreateOrder(order, amount, slPrice, tpPrice, uuid4, server);
      |run.trace| > Count(amount != 0.0) + 1 ==> Accepted(server, Count(amount != 0.0))
    ensures var run := CreateOrder(order, amount, slPrice, tpPrice, uuid4, server);
      amount != 0.0 && |run.trace| > 1 ==> Accepted(server, 0)
  {
    var run := CreateOrder(order, amount, slPrice, tpPrice, uuid4, server);
    if OrderChecks(order, amount, slPrice, tpPrice) == Pass {
      var primary := WithClientOid(order, uuid4);
      assert HasInvertibleSide(primary) && primary[Symbol] == order[Symbol];
      assert run == Place(primary, amount, slPrice, tpPrice, uuid4, IdsDrawn(order), server);
      AttachedFollowPrimaryPlaced(primary, amount, slPrice, tpPrice, uuid4, IdsDrawn(order), server);
    }
  }

  /** `AttachedOrdersFollowPrimary` once validation passed. */
  lemma AttachedFollowPrimaryPlaced(primary: Order, amount: real, slPrice: Value, tpPrice: Value,
                                    uuid4: nat -> string, ids: nat, server: nat -> HttpResponse)
    requires HasInvertibleSide(primary) && Symbol in primary && primary[Symbol].Str?
    ensures var run := Place(primary, amount, slPrice, tpPrice, uuid4, ids, server);
      |run.trace| > Count(amount != 0.0) + 1 ==> Accepted(server, Count(amount != 0.0))
    ensures var run := Place(primary, amount, slPrice, tpPrice, uuid4, ids, server);
      amount != 0.0 && |run.trace| > 1 ==> Accepted(server, 0)
  {
    var run := Place(primary, amount, slPrice, tpPrice, uuid4, ids, server);
    if amount == 0.0 {
      SubmitContents(Plan(primary, slPrice, tpPrice, uuid4, ids), Replies(server), 0, []);
      if |run.trace| > 1 {
        assert Replies(server)(0).Data?;
      }
    } else {
      var reply := HandleResponse(server(0));
      if reply.Data? && ContractSize(amount, reply.value).Some? {
        var sized := Sized(primary, amount, server);
        var info := ContractInfoRequest(primary);
        SubmitContents(Plan(sized, slPrice, tpPrice, uuid4, ids), Replies(server), 1, [info]);
        if |run.trace| > 2 {
          assert Replies(server)(1).Data?;
        }
      }
    }
  }

  /**
   A rejected stop-loss order makes the whole call raise even though the
   primary order was placed, and the take-profit order is never sent.
   */
  lemma StopLossFailureHidesPrimary(order: Order, slPrice: Value, tpPrice: Value,
                                    uuid4: nat -> string, server: nat -> HttpResponse)
    requires Side in order && Symbol in order && order[Symbol].Str?
    requires OrderChecks(order, 0.0, slPrice, tpPrice) == Pass
    requires Truthy(slPrice) && Truthy(tpPrice)
    requires Accepted(server, 0) && !Accepted(server, 1)
    ensures var run := CreateOrder(order, 0.0, slPrice, tpPrice, uuid4, server);
      && |run.trace| == 2
      && run.trace[0] == PostOrder(WithClientOid(order, uuid4))
      && run.outcome == Err(Rejection(HandleResponse(server(1))))
  {
    var primary := WithClientOid(order, uuid4);
    assert HasInvertibleSide(primary) && primary[Symbol] == order[Symbol];
    assert CreateOrder(order, 0.0, slPrice, tpPrice, uuid4, server)
        == Place(primary, 0.0, slPrice, tpPrice, uuid4, IdsDrawn(order), server);
    SecondPostRejected(primary, slPrice, tpPrice, uuid4, IdsDrawn(order), server);
  }

  /** Without an amount, a rejected second post ends the call after exactly two posts. */
  lemma SecondPostRejected(primary: Order, slPrice: Value, tpPrice: Value,
                           uuid4: nat -> string, ids: nat, server: nat -> HttpResponse)
    requires HasInvertibleSide(primary) && Symbol in primary && primary[Symbol].Str?
    requires Truthy(slPrice)
    requires Accepted(server, 0) && !Accepted(server, 1)
    ensures var run := Place(primary, 0.0, slPrice, tpPrice, uuid4, ids, server);
      && |run.trace| == 2
      && run.trace[0] == PostOrder(primary)
      && run.outcome == Err(Rejection(HandleResponse(server(1))))
  {
    var posts := Plan(primary, slPrice, tpPrice, uuid4, ids);
    assert Place(primary, 0.0, slPrice, tpPrice, uuid4, ids, server) == Submit(posts, Replies(server), 0, []);
    SecondOfTwoRejected(posts, Replies(server));
  }

  /** An accepted first post and a rejected second one: exactly those two are sent, and the second's rejection raised. */
  lemma SecondOfTwoRejected(posts: seq<Request>, replies: nat -> Reply)
    requires |posts| >= 2
    requires replies(0).Data? && !replies(1).Data?
    ensures Submit(posts, replies, 0, []) == Run([posts[0], posts[1]], Err(Rejection(replies(1))))
  {
    SubmitRejectedAt(posts, replies, 0, [], 1);
    assert posts[..2] == [posts[0], posts[1]];
  }

  /**
   The validation `create_limit_order` runs before building its payload. The
   source passes `post_only` and `time_in_force` to `validate_post_only` in
   the opposite order to its declaration, so at this call site a truthy time
   in force is rejected unless `post_only` is the string "GTC".
   */
  function LimitChecks(l: LimitArgs): (c: Check)
    ensures c == Pass <==>
      && (!Truthy(l.timeInForce) || l.timeInForce == Str("GTC") || l.timeInForce == Str("IOC"))
      && !(Truthy(l.timeInForce) && l.postOnly != Str("GTC"))
      && !(Truthy(l.hidden) && Truthy(l.iceberg))
      && !(Truthy(l.iceberg) && !Truthy(l.visibleSize))
    ensures c == Fail(PostOnlyWithoutGtc) <==>
      && ValidateTimeInForce(l.timeInForce) == Pass
      && Truthy(l.timeInForce) && l.postOnly != Str("GTC")
    ensures ValidateTimeInForce(l.timeInForce) != Pass ==> c == Fail(TimeInForceNotAllowed)
    ensures && ValidateTimeInForce(l.timeInForce) == Pass
            && ValidatePostOnly(l.postOnly, l.timeInForce) == Pass
            && Truthy(l.hidden) && Truthy(l.iceberg)
            ==> c == Fail(HiddenWithIceberg)
    ensures && ValidateTimeInForce(l.timeInForce) == Pass
            && ValidatePostOnly(l.postOnly, l.timeInForce) == Pass
            && ValidateHiddenAndIceberg(l.hidden, l.iceberg) == Pass
            && Truthy(l.iceberg) && !Truthy(l.visibleSize)
            ==> c == Fail(IcebergWithoutVisibleSize)
  {
    var checks := [
      ValidateTimeInForce(l.timeInForce),
      ValidatePostOnly(l.postOnly, l.timeInForce),
      ValidateHiddenAndIceberg(l.hidden, l.iceberg),
      ValidateIceberg(l.iceberg, l.visibleSize)];
    assert checks[0] == ValidateTimeInForce(l.timeInForce);
    assert checks[1] == ValidatePostOnly(l.postOnly, l.timeInForce);
    assert checks[2] == ValidateHiddenAndIceberg(l.hidden, l.iceberg);
    assert checks[3] == ValidateIceberg(l.iceberg, l.visibleSize);
    FirstFailure(checks)
  }

  /**
   What the limit-order call site accepts, against the declared meaning of
   `validate_post_only`: a post-only order with time in force "GTC" is
   rejected, and a post-only order without a time in force is accepted.
   */
  lemma PostOnlyCallSite(price: Value)
    ensures ValidatePostOnly(Str("GTC"), Bool(true)) == Pass
    ensures LimitChecks(LimitArgs(price, Str("GTC"), Bool(true), Null, Null, Str(""))) == Fail(PostOnlyWithoutGtc)
    ensures ValidatePostOnly(Null, Bool(true)) == Fail(PostOnlyWithoutGtc)
    ensures LimitChecks(LimitArgs(price, Null, Bool(true), Null, Null, Str(""))) == Pass
  {
  }

  /** `create_limit_order`: its own validation, then `_create_order` on the limit payload. */
  function CreateLimitOrder(a: OrderArgs, l: LimitArgs, uuid4: nat -> string, server: nat -> HttpResponse): (run: Run)
    ensures LimitChecks(l) != Pass ==> run == Run([], Err(Invalid(LimitChecks(l).error)))
    ensures run.trace != [] ==> LimitChecks(l) == Pass
    ensures LimitChecks(l) == Pass ==>
      run == CreateOrder(LimitPayload(a, l), a.amount, a.stopLossPrice, a.takeProfitPrice, uuid4, server)
  {
    var check := LimitChecks(l);
    if check.Fail? then Run([], Err(Invalid(check.error)))
    else CreateOrder(LimitPayload(a, l), a.amount, a.stopLossPrice, a.takeProfitPrice, uuid4, server)
  }

  /** `create_market_order`: `_create_order` on the market payload, with no validation of its own. */
  function CreateMarketOrder(a: OrderArgs, uuid4: nat -> string, server: nat -> HttpResponse): (run: Run)
    ensures var check := OrderChecks(MarketPayload(a), a.amount, a.stopLossPrice, a.takeProfitPrice);
      check != Pass ==> run == Run([], Err(Invalid(check.error)))
    ensures run.trace != [] ==> OrderChecks(MarketPayload(a), a.amount, a.stopLossPrice, a.takeProfitPrice) == Pass
  {
    CreateOrder(MarketPayload(a), a.amount, a.stopLossPrice, a.takeProfitPrice, uuid4, server)
  }

  /**
   A limit order that passes both validations starts by posting its payload,
   client id filled in, when no amount is given; a market order sends nothing
   exactly when its payload fails `_create_order`'s validation.
   */
  lemma OrderEntryPoints(a: OrderArgs, l: LimitArgs, uuid4: nat -> string, server: nat -> HttpResponse)
    ensures var run := CreateLimitOrder(a, l, uuid4, server);
      a.amount == 0.0 && run.trace != [] ==> run.trace[0] == PostOrder(WithClientOid(LimitPayload(a, l), uuid4))
    ensures var run := CreateMarketOrder(a, uuid4, server);
      run.trace == [] <==> OrderChecks(MarketPayload(a), a.amount, a.stopLossPrice, a.takeProfitPrice) != Pass
  {
    var limit := LimitPayload(a, l);
    var market := MarketPayload(a);
    CreateOrderValidatesFirst(market, a.amount, a.stopLossPrice, a.takeProfitPrice, uuid4, server);
    if LimitChecks(l) == Pass && OrderChecks(limit, a.amount, a.stopLossPrice, a.takeProfitPrice) == Pass {
      CreateOrderSends(limit, a.amount, a.stopLossPrice, a.takeProfitPrice, uuid4, server);
    }
  }

  /**
   The checks `_create_order` makes, stated on the caller's arguments rather
   than on the payload built from them.
   */
  function ArgumentChecks(a: OrderArgs): Check
  {
    FirstFailure([
      ValidateSide(Str(Lower(a.side))),
      ValidateStop(a.stop, a.stopPrice, a.stopPriceType),
      ValidateStopLossTakeProfit(a.stop, a.stopLossPrice, a.takeProfitPrice),
      ValidateAmountSize(Real(a.amount), a.size)])
  }

  /** How many responses a fully accepted call reads: the contracts read, the primary, and each attached order. */
  function Responses(a: OrderArgs): nat
  {
    Count(a.amount != 0.0) + 1 + Count(Truthy(a.stopLossPrice)) + Count(Truthy(a.takeProfitPrice))
  }

  /** The contract-information read a truthy amount starts with, for the caller's symbol. */
  function InfoRead(a: OrderArgs): seq<Request>
  {
    if a.amount != 0.0 then [Request(Get, ContractsPath(Upper(a.symbol)), map[])] else []
  }

  /**
   `create_market_order` end to end: when the caller's arguments pass
   validation and every response is accepted, the call reads the contract
   information iff the amount is truthy, posts the primary market order and
   its attached orders, and returns the primary order's data.
   */
  lemma MarketOrderHappyPath(a: OrderArgs, uuid4: nat -> string, server: nat -> HttpResponse)
    requires ArgumentChecks(a) == Pass
    requires forall k: nat :: k < Responses(a) ==> Accepted(server, k)
    requires a.amount != 0.0 ==> Accepted(server, 0) && ContractSize(a.amount, HandleResponse(server(0)).value).Some?
    ensures HasInvertibleSide(FinalPrimary(MarketPayload(a), a.amount, uuid4, server))
    ensures var run := CreateMarketOrder(a, uuid4, server);
      && run.trace == InfoRead(a) + Plan(FinalPrimary(MarketPayload(a), a.amount, uuid4, server),
                                         a.stopLossPrice, a.takeProfitPrice, uuid4, IdsDrawn(MarketPayload(a)))
      && run.outcome.Ok?
      && HandleResponse(server(Count(a.amount != 0.0))) == Data(run.outcome.value)
  {
    MarketPayloadChecks(a);
    HappyPath(MarketPayload(a), a.amount, a.stopLossPrice, a.takeProfitPrice, uuid4, server);
  }

  /**
   `create_limit_order` end to end: when its own validation and the caller's
   arguments pass and every response is accepted, the call reads the contract
   information iff the amount is truthy, posts the primary limit order and its
   attached orders, and returns the primary order's data.
   */
  lemma LimitOrderHappyPath(a: OrderArgs, l: LimitArgs, uuid4: nat -> string, server: nat -> HttpResponse)
    requires LimitChecks(l) == Pass && ArgumentChecks(a) == Pass
    requires forall k: nat :: k < Responses(a) ==> Accepted(server, k)
    requires a.amount != 0.0 ==> Accepted(server, 0) && ContractSize(a.amount, HandleResponse(server(0)).value).Some?
    ensures HasInvertibleSide(FinalPrimary(LimitPayload(a, l), a.amount, uuid4, server))
    ensures var run := CreateLimitOrder(a, l, uuid4, server);
      && run.trace == InfoRead(a) + Plan(FinalPrimary(LimitPayload(a, l), a.amount, uuid4, server),
                                         a.stopLossPrice, a.takeProfitPrice, uuid4, IdsDrawn(LimitPayload(a, l)))
      && run.outcome.Ok?
      && HandleResponse(server(Count(a.amount != 0.0))) == Data(run.outcome.value)
  {
    LimitPayloadChecks(a, l);
    HappyPath(LimitPayload(a, l), a.amount, a.stopLossPrice, a.takeProfitPrice, uuid4, server);
  }

  /**
   The builder adds `visible_size` under iceberg's guard alone, but the
   validation before it rejects an iceberg without a visible size, so a
   validated limit payload never carries an empty one.
   */
  lemma ValidatedVisibleSize(a: OrderArgs, l: LimitArgs)
    ensures LimitChecks(l) == Pass && VisibleSize in LimitPayload(a, l) ==> Truthy(LimitPayload(a, l)[VisibleSize])
  {
    LimitVisibleSize(a, l);
  }

  /**
   Validating a payload whose stop fields were added under a truthiness guard
   is validating the arguments they came from: a key left out for a falsy
   argument behaves like that argument.
   */
  lemma ChecksOfGuardedPayload(p: Order, side: string, stop: Value, stopPrice: Value, stopPriceType: Value,
                               amount: real, slPrice: Value, tpPrice: Value)
    requires Side in p && p[Side] == Str(side)
    requires Guarded(p, Stop, stop) && Guarded(p, StopPrice, stopPrice) && Guarded(p, StopPriceType, stopPriceType)
    ensures OrderChecks(p, amount, slPrice, tpPrice) == FirstFailure([
      ValidateSide(Str(side)),
      ValidateStop(stop, stopPrice, stopPriceType),
      ValidateStopLossTakeProfit(stop, slPrice, tpPrice),
      ValidateAmountSize(Real(amount), Lookup(p, Size))])
  {
    assert ValidateStop(Lookup(p, Stop), Lookup(p, StopPrice), Lookup(p, StopPriceType))
        == ValidateStop(stop, stopPrice, stopPriceType);
  }

  /**
   Validating the market payload in `_create_order` is validating the caller's
   arguments, with the side lower-cased.
   */
  lemma MarketPayloadChecks(a: OrderArgs)
    ensures OrderChecks(MarketPayload(a), a.amount, a.stopLossPrice, a.takeProfitPrice) == ArgumentChecks(a)
  {
    MarketPayloadGuards(a);
    ChecksOfGuardedPayload(MarketPayload(a), Lower(a.side), a.stop, a.stopPrice, a.stopPriceType,
                           a.amount, a.stopLossPrice, a.takeProfitPrice);
  }

  /**
   Validating the limit payload in `_create_order` is validating the caller's
   arguments, with the side lower-cased.
   */
  lemma LimitPayloadChecks(a: OrderArgs, l: LimitArgs)
    ensures OrderChecks(LimitPayload(a, l), a.amount, a.stopLossPrice, a.takeProfitPrice) == ArgumentChecks(a)
  {
    LimitPayloadGuards(a, l);
    ChecksOfGuardedPayload(LimitPayload(a, l), Lower(a.side), a.stop, a.stopPrice, a.stopPriceType,
                           a.amount, a.stopLossPrice, a.takeProfitPrice);
  }
}

=== FILE: payload.dfy ===
/**
 The order payloads the client builds: the primary limit or market order from
 the caller's arguments, the contract size computed from a notional amount,
 and the stop-loss and take-profit orders derived from the primary one.
 A payload is the dict the source serialises, a map from key to value.
 */
module Payload {
  import opened Values
  import opened Text
  import opened Utils

  /** The keys an order payload can hold. */
  datatype Field =
    | Symbol | Side | Type | Price | Size
    | ClientOid | Leverage | Remark | Stop | StopPrice | StopPriceType
    | ReduceOnly | CloseOrder | ForceHold | Hidden | Iceberg | VisibleSize

  /** The JSON key each field is sent under. */
  function WireName(f: Field): string
  {
    match f
    case Symbol => "symbol"
    case Side => "side"
    case Type => "type"
    case Price => "price"
    case Size => "size"
    case ClientOid => "clientOid"
    case Leverage => "leverage"
    case Remark => "remark"
    case Stop => "stop"
    case StopPrice => "stopPrice"
    case StopPriceType => "stopPriceType"
    case ReduceOnly => "reduceOnly"
    case CloseOrder => "closeOrder"
    case ForceHold => "forceHold"
    case Hidden => "hidden"
    case Iceberg => "iceberg"
    case VisibleSize => "visible_size"
  }

  /** Distinct fields are sent under distinct keys, so an `Order` map is exactly the dict that is sent. */
  lemma WireNameInjective(f: Field, g: Field)
    ensures WireName(f) == WireName(g) <==> f == g
  {
  }

  /** An order payload: the dict the source serialises, keyed by field. */
  type Order = map<Field, Value>

  /** The arguments `create_limit_order` and `create_market_order` share. */
  datatype OrderArgs = OrderArgs(
    side: string,
    symbol: string,
    leverage: Value,
    amount: real,          // `None` and `0` behave alike, so 0.0 stands for both
    size: Value,
    clientOid: Value,
    remark: Value,
    stop: Value,
    stopPrice: Value,
    stopPriceType: Value,
    reduceOnly: Value,
    closeOrder: Value,
    forceHold: Value,
    stopLossPrice: Value,
    takeProfitPrice: Value)

  /** The arguments only `create_limit_order` takes; `visibleSize` defaults to `""` there. */
  datatype LimitArgs = LimitArgs(
    price: Value,
    timeInForce: Value,
    postOnly: Value,
    hidden: Value,
    iceberg: Value,
    visibleSize: Value)

  /** `order[key] = v` guarded by `if v:`. */
  function PutIfTruthy(order: Order, key: Field, v: Value): Order
  {
    if Truthy(v) then order[key := v] else order
  }

  /** The argument for `key` is given and truthy. */
  predicate Supplied(args: map<Field, Value>, key: Field)
  {
    key in args && Truthy(args[key])
  }

  /**
   A run of guarded assignments `if arg: order[key] = arg`, one per key in
   `keys`: exactly the keys with a truthy argument are added, each with its
   own argument, and nothing else changes.
   */
  function PutEachTruthy(order: Order, keys: seq<Field>, args: map<Field, Value>): (r: Order)
    requires forall k :: k in keys ==> k in args
    ensures forall k :: k in r <==> k in order || (k in keys && Supplied(args, k))
    ensures forall k :: k in keys && Supplied(args, k) ==> r[k] == args[k]
    ensures forall k :: k in order && !(k in keys && Supplied(args, k)) ==> r[k] == order[k]
    decreases |keys|
  {
    if keys == [] then order
    else
      assert forall k :: k in keys <==> k == keys[0] || k in keys[1..];
      PutEachTruthy(PutIfTruthy(order, keys[0], args[keys[0]]), keys[1..], args)
  }

  /** The optional keys both order kinds add, in the order the source adds them. */
  const SharedOptional: seq<Field> :=
    [ClientOid, Leverage, Remark, Stop, StopPrice, StopPriceType, ReduceOnly, CloseOrder, ForceHold]

  /** The limit order's optional keys: the shared ones, then `hidden` and `iceberg`. */
  const LimitOptional: seq<Field> := SharedOptional + [Hidden, Iceberg]

  /** Membership in `SharedOptional`, by cases. */
  predicate IsSharedOptional(k: Field)
  {
    match k
    case ClientOid | Leverage | Remark | Stop | StopPrice | StopPriceType | ReduceOnly | CloseOrder | ForceHold => true
    case _ => false
  }

  /** Membership in `LimitOptional`, by cases. */
  predicate IsLimitOptional(k: Field)
  {
    IsSharedOptional(k) || k == Hidden || k == Iceberg
  }

  /** The two lists of optional keys hold exactly the keys the predicates name. */
  lemma OptionalKeys()
    ensures forall k :: k in SharedOptional <==> IsSharedOptional(k)
    ensures forall k :: k in LimitOptional <==> IsLimitOptional(k)
  {
    assert forall k :: k in LimitOptional <==> k in SharedOptional || k == Hidden || k == Iceberg;
  }

  /** The argument a shared optional key takes its value from; `Null` for the other keys. */
  function SharedArgument(a: OrderArgs, k: Field): Value
  {
    match k
    case ClientOid => a.clientOid
    case Leverage => a.leverage
    case Remark => a.remark
    case Stop => a.stop
    case StopPrice => a.stopPrice
    case StopPriceType => a.stopPriceType
    case ReduceOnly => a.reduceOnly
    case CloseOrder => a.closeOrder
    case ForceHold => a.forceHold
    case _ => Null
  }

  /** The argument an optional key of a limit order takes its value from. */
  function LimitArgument(a: OrderArgs, l: LimitArgs, k: Field): Value
  {
    match k
    case Hidden => l.hidden
    case Iceberg => l.iceberg
    case _ => SharedArgument(a, k)
  }

  /** `k` is a shared optional key whose argument is truthy. */
  predicate SharedSupplied(a: OrderArgs, k: Field)
  {
    IsSharedOptional(k) && Truthy(SharedArgument(a, k))
  }

  /** `k` is an optional key of a limit order whose argument is truthy. */
  predicate LimitSupplied(a: OrderArgs, l: LimitArgs, k: Field)
  {
    IsLimitOptional(k) && Truthy(LimitArgument(a, l, k))
  }

  const MarketRequiredKeys: set<Field> := {Symbol, Side, Type, Size}
  const LimitRequiredKeys: set<Field> := {Symbol, Side, Type, Price, Size}

  /** The value a market order's payload holds under a key it holds. */
  function MarketValue(a: OrderArgs, k: Field): Value
  {
    match k
    case Symbol => Str(Upper(a.symbol))
    case Side => Str(Lower(a.side))
    case Type => Str("market")
    case Size => a.size
    case _ => SharedArgument(a, k)
  }

  /** The value a limit order's payload holds under a key it holds. */
  function LimitValue(a: OrderArgs, l: LimitArgs, k: Field): Value
  {
    match k
    case Symbol => Str(Upper(a.symbol))
    case Side => Str(Lower(a.side))
    case Type => Str("limit")
    case Price => l.price
    case Size => a.size
    case VisibleSize => l.visibleSize
    case _ => LimitArgument(a, l, k)
  }

  /**
   The payload `create_market_order` sends: the required keys, and each
   optional key whose argument is truthy, each key with its value.
   */
  function MarketPayload(a: OrderArgs): (p: Order)
    ensures Symbol in p && p[Symbol] == Str(Upper(a.symbol))
    ensures Side in p && p[Side] == Str(Lower(a.side))
  {
    map k | k in MarketRequiredKeys || SharedSupplied(a, k) :: MarketValue(a, k)
  }

  /**
   The payload `create_limit_order` sends: the required keys, each optional
   key whose argument is truthy, and `visible_size` exactly when `iceberg` is truthy.
   */
  function LimitPayload(a: OrderArgs, l: LimitArgs): (p: Order)
    ensures Symbol in p && p[Symbol] == Str(Upper(a.symbol))
    ensures Side in p && p[Side] == Str(Lower(a.side))
  {
    map k | k in LimitRequiredKeys || LimitSupplied(a, l, k) || (k == VisibleSize && Truthy(l.iceberg)) ::
      LimitValue(a, l, k)
  }

  /** The dict literal `create_market_order` starts from. */
  function MarketBase(a: OrderArgs): Order
  {
    map[Symbol := Str(Upper(a.symbol)), Side := Str(Lower(a.side)), Type := Str("market"), Size := a.size]
  }

  /** The dict literal `create_limit_order` starts from. */
  function LimitBase(a: OrderArgs, l: LimitArgs): Order
  {
    map[Symbol := Str(Upper(a.symbol)), Side := Str(Lower(a.side)), Type := Str("limit"),
        Price := l.price, Size := a.size]
  }

  /** The shared optional keys, each with its argument. */
  function SharedArguments(a: OrderArgs): (args: map<Field, Value>)
    ensures forall k :: k in SharedOptional ==> k in args
    ensures forall k :: k in SharedOptional && Supplied(args, k) <==> SharedSupplied(a, k)
    ensures forall k :: k in args ==> args[k] == SharedArgument(a, k)
  {
    OptionalKeys();
    map k | IsSharedOptional(k) :: SharedArgument(a, k)
  }

  /** The optional keys of a limit order, each with its argument. */
  function LimitArguments(a: OrderArgs, l: LimitArgs): (args: map<Field, Value>)
    ensures forall k :: k in LimitOptional ==> k in args
    ensures forall k :: k in LimitOptional && Supplied(args, k) <==> LimitSupplied(a, l, k)
    ensures forall k :: k in args ==> args[k] == LimitArgument(a, l, k)
  {
    OptionalKeys();
    map k | IsLimitOptional(k) :: LimitArgument(a, l, k)
  }

  /** `create_market_order` as written: the dict literal, then one guarded assignment per optional key. */
  function MarketAssignments(a: OrderArgs): Order
  {
    PutEachTruthy(MarketBase(a), SharedOptional, SharedArguments(a))
  }

  /** The limit order's dict literal after its guarded assignments. */
  function LimitGuarded(a: OrderArgs, l: LimitArgs): Order
  {
    PutEachTruthy(LimitBase(a, l), LimitOptional, LimitArguments(a, l))
  }

  /** `create_limit_order` as written: the guarded assignments, then `visible_size` guarded by `iceberg`. */
  function LimitAssignments(a: OrderArgs, l: LimitArgs): Order
  {
    var order := LimitGuarded(a, l);
    if Truthy(l.iceberg) then order[VisibleSize := l.visibleSize] else order
  }

  /** A key whose argument is truthy ends up holding that argument. */
  lemma AssignedArgument(order: Order, keys: seq<Field>, args: map<Field, Value>, k: Field)
    requires forall j :: j in keys ==> j in args
    requires k in keys && Supplied(args, k)
    ensures k in PutEachTruthy(order, keys, args) && PutEachTruthy(order, keys, args)[k] == args[k]
  {
  }

  /** Two payloads with the same keys and the same value under each key are equal. */
  lemma SameOrder(p: Order, q: Order)
    requires forall k :: k in p <==> k in q
    requires forall k :: k in p ==> p[k] == q[k]
    ensures p == q
  {
  }

  lemma MarketBaseHoldsRequired(a: OrderArgs)
    ensures MarketBase(a).Keys == MarketRequiredKeys
    ensures forall k :: k in MarketBase(a) ==> MarketBase(a)[k] == MarketValue(a, k)
    ensures forall k :: k in MarketRequiredKeys ==> !SharedSupplied(a, k)
  {
    forall k | k in MarketBase(a)
      ensures MarketBase(a)[k] == MarketValue(a, k)
    {
      assert k == Symbol || k == Side || k == Type || k == Size;
    }
  }

  lemma LimitBaseHoldsRequired(a: OrderArgs, l: LimitArgs)
    ensures LimitBase(a, l).Keys == LimitRequiredKeys
    ensures forall k :: k in LimitBase(a, l) ==> LimitBase(a, l)[k] == LimitValue(a, l, k)
    ensures forall k :: k in LimitRequiredKeys ==> !LimitSupplied(a, l, k)
    ensures VisibleSize !in LimitRequiredKeys && !LimitSupplied(a, l, VisibleSize)
  {
    forall k | k in LimitBase(a, l)
      ensures LimitBase(a, l)[k] == LimitValue(a, l, k)
    {
      assert k == Symbol || k == Side || k == Type || k == Price || k == Size;
    }
  }

  lemma MarketAssignmentsKeys(a: OrderArgs)
    ensures forall k :: k in MarketAssignments(a) <==> k in MarketPayload(a)
  {
    MarketBaseHoldsRequired(a);
  }

  lemma MarketAssignmentsValue(a: OrderArgs, k: Field)
    requires k in MarketAssignments(a)
    ensures MarketAssignments(a)[k] == MarketValue(a, k)
  {
    MarketBaseHoldsRequired(a);
    if SharedSupplied(a, k) {
      assert MarketAssignments(a)[k] == SharedArguments(a)[k];
    } else {
      assert MarketAssignments(a)[k] == MarketBase(a)[k];
    }
  }

  /**
   The payload described key by key is exactly what the source's dict literal
   followed by its guarded assignments builds.
   */
  lemma MarketPayloadIsGuardedAssignments(a: OrderArgs)
    ensures MarketPayload(a) == MarketAssignments(a)
  {
    var p, q := MarketPayload(a), MarketAssignments(a);
    MarketAssignmentsKeys(a);
    forall k | k in p
      ensures p[k] == q[k]
    {
      MarketAssignmentsValue(a, k);
    }
    SameOrder(p, q);
  }

  lemma LimitAssignmentsKeys(a: OrderArgs, l: LimitArgs)
    ensures forall k :: k in LimitAssignments(a, l) <==> k in LimitPayload(a, l)
  {
    LimitBaseHoldsRequired(a, l);
  }

  lemma LimitAssignmentsValue(a: OrderArgs, l: LimitArgs, k: Field)
    requires k in LimitAssignments(a, l)
    ensures LimitAssignments(a, l)[k] == LimitValue(a, l, k)
  {
    if k == VisibleSize {
      LimitAssignedVisibleSize(a, l);
    } else if LimitSupplied(a, l, k) {
      LimitAssignedSupplied(a, l, k);
    } else {
      LimitAssignedRequired(a, l, k);
    }
  }

  lemma LimitAssignedVisibleSize(a: OrderArgs, l: LimitArgs)
    requires VisibleSize in LimitAssignments(a, l)
    ensures LimitAssignments(a, l)[VisibleSize] == l.visibleSize
  {
    OptionalKeys();
    assert VisibleSize !in LimitBase(a, l) && VisibleSize !in LimitOptional;
    assert VisibleSize !in LimitGuarded(a, l);
  }

  lemma LimitAssignedSupplied(a: OrderArgs, l: LimitArgs, k: Field)
    requires LimitSupplied(a, l, k)
    ensures k != VisibleSize && LimitAssignments(a, l)[k] == LimitValue(a, l, k)
  {
    LimitOptionalValue(a, l, k);
    var args := LimitArguments(a, l);
    AssignedArgument(LimitBase(a, l), LimitOptional, args, k);
    assert LimitAssignments(a, l)[k] == LimitGuarded(a, l)[k];
  }

  /** An optional key of a limit order holds its own argument. */
  lemma LimitOptionalValue(a: OrderArgs, l: LimitArgs, k: Field)
    requires IsLimitOptional(k)
    ensures k != VisibleSize && LimitValue(a, l, k) == LimitArgument(a, l, k)
  {
  }

  lemma LimitAssignedRequired(a: OrderArgs, l: LimitArgs, k: Field)
    requires k in LimitAssignments(a, l) && k != VisibleSize && !LimitSupplied(a, l, k)
    ensures LimitAssignments(a, l)[k] == LimitValue(a, l, k)
  {
    LimitBaseHoldsRequired(a, l);
    assert !(k in LimitOptional && Supplied(LimitArguments(a, l), k));
    assert k in LimitBase(a, l);
    assert LimitGuarded(a, l)[k] == LimitBase(a, l)[k];
  }

  /**
   The limit payload described key by key is exactly what the source's dict
   literal, its guarded assignments and the `visible_size` step build.
   */
  lemma LimitPayloadIsGuardedAssignments(a: OrderArgs, l: LimitArgs)
    ensures LimitPayload(a, l) == LimitAssignments(a, l)
  {
    var p, q := LimitPayload(a, l), LimitAssignments(a, l);
    LimitAssignmentsKeys(a, l);
    forall k | k in p
      ensures p[k] == q[k]
    {
      LimitAssignmentsValue(a, l, k);
    }
    SameOrder(p, q);
  }

  /** With every optional argument absent and no iceberg, a limit payload holds just its five required keys. */
  lemma MinimalLimitPayload(a: OrderArgs, l: LimitArgs)
    requires forall k :: !LimitSupplied(a, l, k)
    ensures LimitPayload(a, l).Keys == LimitRequiredKeys
  {
    assert !LimitSupplied(a, l, Iceberg);
  }

  /** The payload holds `v` under `k` when `v` is truthy, and lacks `k` otherwise. */
  predicate Guarded(p: Order, k: Field, v: Value)
  {
    if Truthy(v) then k in p && p[k] == v else k !in p
  }

  /** An optional key is in the market payload, with its argument, exactly when the argument is truthy. */
  lemma MarketOptionalField(a: OrderArgs, k: Field)
    requires IsSharedOptional(k)
    ensures Guarded(MarketPayload(a), k, SharedArgument(a, k))
  {
    assert k !in MarketRequiredKeys;
  }

  /** The market payload's side, size and stop fields, as `_create_order` reads them. */
  lemma MarketPayloadGuards(a: OrderArgs)
    ensures MarketPayload(a)[Side] == Str(Lower(a.side))
    ensures Lookup(MarketPayload(a), Size) == a.size
    ensures Guarded(MarketPayload(a), Stop, a.stop)
    ensures Guarded(MarketPayload(a), StopPrice, a.stopPrice)
    ensures Guarded(MarketPayload(a), StopPriceType, a.stopPriceType)
  {
    assert Size in MarketRequiredKeys;
    MarketOptionalField(a, Stop);
    MarketOptionalField(a, StopPrice);
    MarketOptionalField(a, StopPriceType);
  }

  /** An optional key is in the limit payload, with its argument, exactly when the argument is truthy. */
  lemma LimitOptionalField(a: OrderArgs, l: LimitArgs, k: Field)
    requires IsLimitOptional(k)
    ensures Guarded(LimitPayload(a, l), k, LimitArgument(a, l, k))
  {
    assert k !in LimitRequiredKeys && k != VisibleSize;
  }

  /** `visible_size` is in the limit payload exactly when `iceberg` is truthy, and then holds the visible size. */
  lemma LimitVisibleSize(a: OrderArgs, l: LimitArgs)
    ensures VisibleSize in LimitPayload(a, l) <==> Truthy(l.iceberg)
    ensures Truthy(l.iceberg) ==> LimitPayload(a, l)[VisibleSize] == l.visibleSize
  {
    assert VisibleSize !in LimitRequiredKeys && !IsLimitOptional(VisibleSize);
  }

  /** The limit payload's side, size and stop fields, as `_create_order` reads them. */
  lemma LimitPayloadGuards(a: OrderArgs, l: LimitArgs)
    ensures LimitPayload(a, l)[Side] == Str(Lower(a.side))
    ensures Lookup(LimitPayload(a, l), Size) == a.size
    ensures Guarded(LimitPayload(a, l), Stop, a.stop)
    ensures Guarded(LimitPayload(a, l), StopPrice, a.stopPrice)
    ensures Guarded(LimitPayload(a, l), StopPriceType, a.stopPriceType)
  {
    assert Size in LimitRequiredKeys;
    LimitOptionalField(a, l, Stop);
    LimitOptionalField(a, l, StopPrice);
    LimitOptionalField(a, l, StopPriceType);
  }

  /**
   The market payload always holds the symbol, side, type "market" and size
   (`None` included), and holds nothing but those and the shared optional keys.
   */
  lemma MarketRequiredFields(a: OrderArgs)
    ensures MarketRequiredKeys <= MarketPayload(a).Keys
    ensures MarketPayload(a)[Type] == Str("market") && MarketPayload(a)[Size] == a.size
    ensures forall k :: k in MarketPayload(a) ==> k in MarketRequiredKeys || IsSharedOptional(k)
    ensures Price !in MarketPayload(a) && VisibleSize !in MarketPayload(a)
  {
    assert Type in MarketRequiredKeys && Size in MarketRequiredKeys;
  }

  /**
   The limit payload always holds the symbol, side, type "limit", price and
   size (`None` included), and holds nothing but those, the optional keys and
   `visible_size`.
   */
  lemma LimitRequiredFields(a: OrderArgs, l: LimitArgs)
    ensures LimitRequiredKeys <= LimitPayload(a, l).Keys
    ensures LimitPayload(a, l)[Type] == Str("limit")
    ensures LimitPayload(a, l)[Price] == l.price && LimitPayload(a, l)[Size] == a.size
    ensures forall k :: k in LimitPayload(a, l) ==> k in LimitRequiredKeys || IsLimitOptional(k) || k == VisibleSize
  {
    assert Type in LimitRequiredKeys && Price in LimitRequiredKeys && Size in LimitRequiredKeys;
  }

  /**
   For the same shared arguments, the two payloads agree on every key other
   than the type and the limit order's own keys.
   */
  lemma MarketAgreesWithLimit(a: OrderArgs, l: LimitArgs, k: Field)
    requires k != Type && k != Price && k != Hidden && k != Iceberg && k != VisibleSize
    ensures k in MarketPayload(a) <==> k in LimitPayload(a, l)
    ensures k in MarketPayload(a) ==> MarketPayload(a)[k] == LimitPayload(a, l)[k]
  {
  }

  /** The side-inversion table applies to the payload's side. */
  predicate HasInvertibleSide(order: Order)
  {
    Side in order && order[Side].Str? && order[Side].s in SideMapping
  }

  /** An attached conditional order: a stop-loss or a take-profit. */
  datatype Leg = StopLoss | TakeProfit

  /**
   The trigger direction of an attached order: after a buy a stop-loss fires on
   the way down and a take-profit on the way up; after a sell, the reverse.
   */
  function StopDirection(leg: Leg, primarySide: string): string
  {
    match leg
    case StopLoss => if primarySide == "buy" then "down" else "up"
    case TakeProfit => if primarySide == "buy" then "up" else "down"
  }

  /** The keys the derivation of an attached order overwrites. */
  const RewrittenKeys: set<Field> := {ClientOid, Side, Stop, StopPrice, StopPriceType, ReduceOnly}

  /**
   The stop-loss or take-profit order derived from the final primary payload:
   a copy with a fresh client id, the opposite side, a trigger in the closing
   direction at `price`, price type "TP" and reduce-only set.
   */
  function Conditional(primary: Order, leg: Leg, price: Value, freshId: string): (c: Order)
    requires HasInvertibleSide(primary)
    ensures c.Keys == primary.Keys + RewrittenKeys
    ensures forall k :: k in primary && k !in RewrittenKeys ==> c[k] == primary[k]
    ensures c[ClientOid] == Str(freshId)
    ensures HasInvertibleSide(c) && c[Side] != primary[Side]
    ensures InvertSide(c[Side].s) == Some(primary[Side].s)
    ensures c[Stop] == Str("down") || c[Stop] == Str("up")
    ensures c[Stop] == Str("down") <==> (leg == StopLoss <==> primary[Side] == Str("buy"))
    ensures c[StopPrice] == price && c[StopPriceType] == Str("TP") && c[ReduceOnly] == Bool(true)
  {
    var side := primary[Side].s;
    primary[ClientOid := Str(freshId)]
           [Side := Str(SideMapping[side])]
           [Stop := Str(StopDirection(leg, side))]
           [StopPrice := price]
           [StopPriceType := Str("TP")]
           [ReduceOnly := Bool(true)]
  }

  /**
   The stop-loss and take-profit orders for one primary differ only in their
   client id, trigger price and trigger direction, and the directions are opposite.
   */
  lemma StopLossMirrorsTakeProfit(primary: Order, slPrice: Value, tpPrice: Value, slId: string, tpId: string)
    requires HasInvertibleSide(primary)
    ensures var sl := Conditional(primary, StopLoss, slPrice, slId);
            var tp := Conditional(primary, TakeProfit, tpPrice, tpId);
            && sl.Keys == tp.Keys
            && sl[Side] == tp[Side]
            && sl[Stop] != tp[Stop]
            && forall k :: k in sl && k !in {ClientOid, Stop, StopPrice} ==> sl[k] == tp[k]
  {
  }

  /** Examples: a buy with a stop-loss at 100, and a sell with a take-profit at 50. */
  lemma ConditionalExamples(primary: Order)
    ensures var buy := primary[Side := Str("buy")];
            var sl := Conditional(buy, StopLoss, Int(100), "id");
            sl[Side] == Str("sell") && sl[Stop] == Str("down") && sl[StopPrice] == Int(100)
            && sl[ReduceOnly] == Bool(true)
    ensures var sell := primary[Side := Str("sell")];
            var tp := Conditional(sell, TakeProfit, Int(50), "id");
            tp[Side] == Str("buy") && tp[Stop] == Str("down")
  {
  }

  /** Which of the two size formulas applies. */
  datatype Sizing = Scaled | FloorDivided

  function SizingRule(amount: real, multiplier: real): Sizing
  {
    if amount >= 1.0 && multiplier < 1.0 then Scaled else FloorDivided
  }

  /**
   The contract size for a notional amount, from the contract information the
   exchange returned: `int(amount * (1 / multiplier))` when the amount is at
   least one and the multiplier below one, `amount // multiplier` otherwise.
   `None` stands for the exception the source raises when the information is
   not a dict, or its multiplier is missing, not a number, or zero.
   */
  function ContractSize(amount: real, info: Value): (r: Option<Value>)
    ensures r.None? <==>
      || !info.Dict?
      || AsNumber(Lookup(info.fields, "multiplier")).None?
      || !Truthy(Lookup(info.fields, "multiplier"))
    ensures r.Some? ==>
      var m := AsNumber(Lookup(info.fields, "multiplier")).value;
      && (SizingRule(amount, m) == Scaled ==> r.value.Int? && r.value.i == Trunc(amount / m))
      && (SizingRule(amount, m) == FloorDivided ==> r.value.Real? && r.value.x == (amount / m).Floor as real)
  {
    if !info.Dict? then None
    else
      match AsNumber(Lookup(info.fields, "multiplier"))
      case None => None
      case Some(m) =>
        if m == 0.0 then None
        else if SizingRule(amount, m) == Scaled then Some(Int(Trunc(amount * (1.0 / m))))
        else Some(Real((amount / m).Floor as real))
  }

  /** An amount of at least one with a positive multiplier below one never rounds down to zero contracts. */
  lemma ScaledSizeIsPositive(amount: real, multiplier: real)
    requires amount >= 1.0 && 0.0 < multiplier < 1.0
    ensures ContractSize(amount, Dict(map["multiplier" := Real(multiplier)])).Some?
    ensures ContractSize(amount, Dict(map["multiplier" := Real(multiplier)])).value.i >= 1
  {
    assert amount / multiplier > 1.0;
  }

  /** Examples: 2 at multiplier 0.1 is 20 contracts; 0.5 at multiplier 2 floors to 0. */
  lemma ContractSizeExamples()
    ensures ContractSize(2.0, Dict(map["multiplier" := Real(0.1)])) == Some(Int(20))
    ensures ContractSize(0.5, Dict(map["multiplier" := Int(2)])) == Some(Real(0.0))
  {
    assert 2.0 / 0.1 == 20.0;
    assert Trunc(20.0) == 20;
  }
}

=== FILE: text.dfy ===
/**
 The pieces of Python's string behaviour the client depends on: `str.upper()`,
 `str.lower()` (ASCII letters only) and `str(n)` for an integer.
 */
module Text {

  predicate IsAsciiLower(c: char) { 'a' <= c <= 'z' }

  predicate IsAsciiUpper(c: char) { 'A' <= c <= 'Z' }

  predicate IsDigit(c: char) { '0' <= c <= '9' }

  function UpperChar(c: char): char
  {
    if IsAsciiLower(c) then (c as int - 32) as char else c
  }

  function LowerChar(c: char): char
  {
    if IsAsciiUpper(c) then (c as int + 32) as char else c
  }

  /** `s.upper()`: no lower-case letter survives, and each character keeps its letter. */
  function Upper(s: string): (r: string)
    ensures |r| == |s|
    ensures forall i :: 0 <= i < |r| ==> !IsAsciiLower(r[i])
    ensures forall i :: 0 <= i < |r| ==> LowerChar(r[i]) == LowerChar(s[i])
  {
    seq(|s|, i requires 0 <= i < |s| => UpperChar(s[i]))
  }

  /** `s.lower()`: no upper-case letter survives, and each character keeps its letter. */
  function Lower(s: string): (r: string)
    ensures |r| == |s|
    ensures forall i :: 0 <= i < |r| ==> !IsAsciiUpper(r[i])
    ensures forall i :: 0 <= i < |r| ==> UpperChar(r[i]) == UpperChar(s[i])
  {
    seq(|s|, i requires 0 <= i < |s| => LowerChar(s[i]))
  }

  /** Lower-casing a string that has no upper-case letter changes nothing. */
  lemma LowerFixesLowerCase(s: string)
    requires forall i :: 0 <= i < |s| ==> !IsAsciiUpper(s[i])
    ensures Lower(s) == s
  {
  }

  /** Lower-casing is idempotent, so a side that was lower-cased once stays as it is. */
  lemma LowerIdempotent(s: string)
    ensures Lower(Lower(s)) == Lower(s)
  {
    LowerFixesLowerCase(Lower(s));
  }

  function DigitChar(d: int): (c: char)
    requires 0 <= d < 10
    ensures IsDigit(c)
  {
    ('0' as int + d) as char
  }

  function DigitValue(c: char): (d: nat)
    requires IsDigit(c)
    ensures d < 10 && DigitChar(d) == c
  {
    c as int - '0' as int
  }

  /** `str(n)` for a natural number: decimal digits, no leading zero. */
  function NatDecimal(n: nat): (r: string)
    ensures |r| >= 1
    ensures forall i :: 0 <= i < |r| ==> IsDigit(r[i])
    ensures |r| > 1 ==> r[0] != '0'
    decreases n
  {
    if n < 10 then [DigitChar(n)] else NatDecimal(n / 10) + [DigitChar(n % 10)]
  }

  /** `str(n)` for any integer: a minus sign in front of a negative number. */
  function Decimal(n: int): (r: string)
    ensures |r| >= 1
    ensures r[0] == '-' <==> n < 0
  {
    if n < 0 then "-" + NatDecimal(-n) else NatDecimal(n)
  }

  /** The number a string of decimal digits denotes; the partner of `NatDecimal`. */
  function ParseNat(s: string): nat
    requires forall i :: 0 <= i < |s| ==> IsDigit(s[i])
  {
    if s == [] then 0 else ParseNat(s[..|s| - 1]) * 10 + DigitValue(s[|s| - 1])
  }

  /** Reading back the decimal rendering of a number yields the number. */
  lemma {:induction false} ParseNatDecimal(n: nat)
    ensures ParseNat(NatDecimal(n)) == n
    decreases n
  {
    if n >= 10 {
      var r := NatDecimal(n);
      assert r[..|r| - 1] == NatDecimal(n / 10);
      ParseNatDecimal(n / 10);
      assert DigitValue(r[|r| - 1]) == n % 10;
    }
  }

  /** The leading decimal digit of a number. */
  function LeadingDigit(n: nat): (d: nat)
    ensures d < 10
    ensures n > 0 ==> d > 0
    decreases n
  {
    if n < 10 then n else LeadingDigit(n / 10)
  }

  /** The first character of `str(n)` is the leading digit of `n`. */
  lemma {:induction false} NatDecimalStartsWithLeadingDigit(n: nat)
    ensures NatDecimal(n)[0] == DigitChar(LeadingDigit(n))
    decreases n
  {
    if n >= 10 {
      NatDecimalStartsWithLeadingDigit(n / 10);
    }
  }

  /** A three-digit number's leading digit is its hundreds digit. */
  lemma LeadingDigitOfThreeDigits(n: nat)
    requires 100 <= n < 1000
    ensures LeadingDigit(n) == n / 100
  {
    assert 10 <= n / 10 < 100;
    assert LeadingDigit(n) == LeadingDigit(n / 10) == LeadingDigit(n / 10 / 10);
    assert n / 10 / 10 == n / 100;
  }
}

=== FILE: utils.dfy ===
/**
 Shared helpers of the client: the buy/sell inversion table used when an
 attached stop-loss or take-profit order closes the primary position, and the
 dash-free rendering of a random uuid used as a client order id.
 */
module Utils {
  import opened Values

  /** The side-inversion table. */
  const SideMapping: map<string, string> := map["buy" := "sell", "sell" := "buy"]

  /** `SIDE_MAPPING.get(side)`: the opposite side, or `None` outside the table. */
  function InvertSide(side: string): (r: Option<string>)
    ensures side == "buy" <==> r == Some("sell")
    ensures side == "sell" <==> r == Some("buy")
    ensures r.None? <==> side != "buy" && side != "sell"
    ensures r.Some? ==> r.value != side
  {
    if side in SideMapping then Some(SideMapping[side]) else None
  }

  /** Inverting twice returns the original side, and the inverse is again in the table. */
  lemma InvertSideInvolution(side: string)
    requires side in SideMapping
    ensures InvertSide(side).Some?
    ensures InvertSide(side).value in SideMapping
    ensures InvertSide(InvertSide(side).value) == Some(side)
  {
  }

  /** The table's domain is exactly buy and sell, and it is a bijection on that domain. */
  lemma SideMappingDomain()
    ensures SideMapping.Keys == {"buy", "sell"}
    ensures SideMapping.Values == SideMapping.Keys
  {
    assert SideMapping["buy"] == "sell" && SideMapping["sell"] == "buy";
  }

  /** `s.replace('-', '')`: every dash removed, every other character kept in order. */
  function StripDashes(s: string): (r: string)
    ensures '-' !in r
    ensures |r| <= |s|
    ensures forall c :: c != '-' ==> multiset(r)[c] == multiset(s)[c]
    decreases |s|
  {
    if s == [] then []
    else
      assert s == [s[0]] + s[1..];
      if s[0] == '-' then StripDashes(s[1..]) else [s[0]] + StripDashes(s[1..])
  }

  /** Removing dashes distributes over concatenation. */
  lemma {:induction false} StripDashesAppend(a: string, b: string)
    ensures StripDashes(a + b) == StripDashes(a) + StripDashes(b)
    decreases |a|
  {
    if a != [] {
      assert a + b != [];
      assert (a + b)[0] == a[0];
      assert (a + b)[1..] == a[1..] + b;
      StripDashesAppend(a[1..], b);
      if a[0] == '-' {
        assert StripDashes(a) == StripDashes(a[1..]);
        assert StripDashes(a + b) == StripDashes(a[1..] + b);
      } else {
        assert StripDashes(a) == [a[0]] + StripDashes(a[1..]);
        assert StripDashes(a + b) == [a[0]] + StripDashes(a[1..] + b);
      }
    } else {
      assert a + b == b;
    }
  }

  /** A string without dashes is left unchanged, so stripping is idempotent. */
  lemma {:induction false} StripDashesNoDash(s: string)
    requires '-' !in s
    ensures StripDashes(s) == s
    decreases |s|
  {
    if s != [] {
      assert s[0] != '-';
      assert '-' !in s[1..];
      StripDashesNoDash(s[1..]);
    }
  }

  /**
   `flat_uuid()`: the canonical rendering of a random uuid with its dashes
   removed. The randomness is abstract: `rendered` is what `str(uuid4())` gave.
   */
  function FlatUuid(rendered: string): (id: string)
    ensures '-' !in id
    ensures StripDashes(id) == id
  {
    var id := StripDashes(rendered);
    StripDashesNoDash(id);
    id
  }

  predicate IsHexDigit(c: char)
  {
    '0' <= c <= '9' || 'a' <= c <= 'f'
  }

  predicate AllHex(s: string)
  {
    forall i :: 0 <= i < |s| ==> IsHexDigit(s[i])
  }

  /** Positions of the four dashes in the canonical 8-4-4-4-12 rendering of a uuid. */
  predicate IsDashPosition(i: int)
  {
    i == 8 || i == 13 || i == 18 || i == 23
  }

  /** The shape of `str(uuid.uuid4())`: 36 characters, hex digits around four dashes. */
  predicate IsCanonicalUuid(s: string)
  {
    && |s| == 36
    && (forall i :: 0 <= i < 36 && IsDashPosition(i) ==> s[i] == '-')
    && (forall i :: 0 <= i < 36 && !IsDashPosition(i) ==> IsHexDigit(s[i]))
  }

  /** A prefix of a string splits around any character inside it. */
  lemma SplitPrefix(s: string, j: nat, k: nat)
    requires j < k <= |s|
    ensures s[..k] == s[..j] + [s[j]] + s[j + 1..k]
  {
  }

  /** A stretch of a canonical uuid between two dash positions is all hex and has no dash. */
  lemma HexStretch(s: string, lo: nat, hi: nat)
    requires IsCanonicalUuid(s)
    requires lo <= hi <= 36
    requires forall i :: lo <= i < hi ==> !IsDashPosition(i)
    ensures AllHex(s[lo..hi])
    ensures StripDashes(s[lo..hi]) == s[lo..hi]
  {
    var h := s[lo..hi];
    assert forall i :: 0 <= i < |h| ==> h[i] == s[lo + i];
    assert forall i :: 0 <= i < |h| ==> IsHexDigit(h[i]) && h[i] != '-';
    StripDashesNoDash(h);
  }

  /** Flattening the prefix of a canonical uuid up to the next dash (or the end). */
  lemma FlatPrefixStep(s: string, j: nat, k: nat)
    requires IsCanonicalUuid(s)
    requires j < k <= 36 && s[j] == '-'
    requires forall i :: j < i < k ==> !IsDashPosition(i)
    ensures StripDashes(s[..k]) == StripDashes(s[..j]) + s[j + 1..k]
  {
    SplitPrefix(s, j, k);
    HexStretch(s, j + 1, k);
    StripDashesAppend(s[..j] + [s[j]], s[j + 1..k]);
    StripDashesAppend(s[..j], [s[j]]);
    assert StripDashes([s[j]]) == [];
  }

  /** A canonical uuid flattens to 32 hex digits. */
  lemma FlatUuidOfCanonical(s: string)
    requires IsCanonicalUuid(s)
    ensures |FlatUuid(s)| == 32
    ensures AllHex(FlatUuid(s))
  {
    HexStretch(s, 0, 8);
    HexStretch(s, 9, 13);
    HexStretch(s, 14, 18);
    HexStretch(s, 19, 23);
    HexStretch(s, 24, 36);
    FlatPrefixStep(s, 8, 13);
    FlatPrefixStep(s, 13, 18);
    FlatPrefixStep(s, 18, 23);
    FlatPrefixStep(s, 23, 36);
    assert s[..36] == s;
    var flat := s[..8] + s[9..13] + s[14..18] + s[19..23] + s[24..36];
    assert FlatUuid(s) == flat;
    assert forall i :: 0 <= i < |flat| ==> IsHexDigit(flat[i]) by {
      AllHexAppend(s[..8], s[9..13]);
      AllHexAppend(s[..8] + s[9..13], s[14..18]);
      AllHexAppend(s[..8] + s[9..13] + s[14..18], s[19..23]);
      AllHexAppend(s[..8] + s[9..13] + s[14..18] + s[19..23], s[24..36]);
    }
  }

  lemma AllHexAppend(a: string, b: string)
    requires AllHex(a) && AllHex(b)
    ensures AllHex(a + b)
  {
  }
}

=== FILE: validations.dfy ===
/**
 Client-side order-parameter validation. Each validator either passes or fails
 with the kind of parameter-validation error the source raises; every optional
 parameter is judged by Python truthiness, so `None`, `""`, `0` and `False`
 all count as absent.
 */
module Validations {
  import opened Values

  const ValidSide: seq<string> := ["buy", "sell"]
  const ValidStop: seq<string> := ["down", "up"]
  const ValidStopPriceType: seq<string> := ["TP", "MP", "IP"]
  const ValidTimeInForce: seq<string> := ["GTC", "IOC"]

  /** One kind per validation error message. */
  datatype ValidationError =
    | SideNotAllowed
    | StopNotAllowed
    | StopPriceTypeNotAllowed
    | StopPriceMissing
    | StopWithStopLossOrTakeProfit
    | TimeInForceNotAllowed
    | PostOnlyWithoutGtc
    | HiddenWithIceberg
    | IcebergWithoutVisibleSize
    | AmountWithSize

  /** The outcome of a validator: it returns normally, or it raises. */
  datatype Check = Pass | Fail(error: ValidationError)

  /** `validate_side`: only the strings "buy" and "sell" pass. */
  function ValidateSide(side: Value): (r: Check)
    ensures r == Pass <==> side == Str("buy") || side == Str("sell")
    ensures r != Pass ==> r == Fail(SideNotAllowed)
  {
    if !IsOneOf(side, ValidSide) then Fail(SideNotAllowed) else Pass
  }

  /**
   `validate_stop`: nothing is checked without a stop; with one, the stop
   direction, then the price type, then the presence of a price are checked.
   */
  function ValidateStop(stop: Value, stopPrice: Value, stopPriceType: Value): (r: Check)
    ensures !Truthy(stop) ==> r == Pass
    ensures Truthy(stop) ==>
      (r == Pass <==>
        && (stop == Str("down") || stop == Str("up"))
        && (stopPriceType == Str("TP") || stopPriceType == Str("MP") || stopPriceType == Str("IP"))
        && Truthy(stopPrice))
    ensures Truthy(stop) && stop != Str("down") && stop != Str("up") ==> r == Fail(StopNotAllowed)
    ensures stop in {Str("down"), Str("up")} && stopPriceType !in {Str("TP"), Str("MP"), Str("IP")} ==>
      r == Fail(StopPriceTypeNotAllowed)
    ensures stop in {Str("down"), Str("up")} && stopPriceType in {Str("TP"), Str("MP"), Str("IP")} && !Truthy(stopPrice) ==>
      r == Fail(StopPriceMissing)
    ensures r == Fail(StopPriceMissing) ==> !Truthy(stopPrice)
  {
    if !Truthy(stop) then Pass
    else if !IsOneOf(stop, ValidStop) then Fail(StopNotAllowed)
    else if !IsOneOf(stopPriceType, ValidStopPriceType) then Fail(StopPriceTypeNotAllowed)
    else if !Truthy(stopPrice) then Fail(StopPriceMissing)
    else Pass
  }

  /** `validate_stop_loss_take_profit`: a stop excludes attached stop-loss and take-profit orders. */
  function ValidateStopLossTakeProfit(stop: Value, stopLoss: Value, takeProfit: Value): (r: Check)
    ensures r != Pass <==> Truthy(stop) && (Truthy(stopLoss) || Truthy(takeProfit))
    ensures r != Pass ==> r == Fail(StopWithStopLossOrTakeProfit)
  {
    if Truthy(stop) && (Truthy(stopLoss) || Truthy(takeProfit)) then Fail(StopWithStopLossOrTakeProfit) else Pass
  }

  /** `validate_time_in_force`: absent, or one of GTC and IOC. */
  function ValidateTimeInForce(timeInForce: Value): (r: Check)
    ensures r == Pass <==> !Truthy(timeInForce) || timeInForce == Str("GTC") || timeInForce == Str("IOC")
    ensures r != Pass ==> r == Fail(TimeInForceNotAllowed)
  {
    if !Truthy(timeInForce) then Pass
    else if !IsOneOf(timeInForce, ValidTimeInForce) then Fail(TimeInForceNotAllowed)
    else Pass
  }

  /** `validate_post_only(time_in_force, post_only)`, in its declared parameter order. */
  function ValidatePostOnly(timeInForce: Value, postOnly: Value): (r: Check)
    ensures r != Pass <==> Truthy(postOnly) && timeInForce != Str("GTC")
    ensures r != Pass ==> r == Fail(PostOnlyWithoutGtc)
  {
    if Truthy(postOnly) && timeInForce != Str(ValidTimeInForce[0]) then Fail(PostOnlyWithoutGtc) else Pass
  }

  /** `validate_hidden_and_iceberg`: the two flags exclude each other. */
  function ValidateHiddenAndIceberg(hidden: Value, iceberg: Value): (r: Check)
    ensures r != Pass <==> Truthy(hidden) && Truthy(iceberg)
    ensures r != Pass ==> r == Fail(HiddenWithIceberg)
  {
    if Truthy(hidden) && Truthy(iceberg) then Fail(HiddenWithIceberg) else Pass
  }

  /** `validate_iceberg`: an iceberg order needs a visible size. */
  function ValidateIceberg(iceberg: Value, visibleSize: Value): (r: Check)
    ensures r != Pass <==> Truthy(iceberg) && !Truthy(visibleSize)
    ensures r != Pass ==> r == Fail(IcebergWithoutVisibleSize)
  {
    if Truthy(iceberg) && !Truthy(visibleSize) then Fail(IcebergWithoutVisibleSize) else Pass
  }

  /** `validate_amount_size`: a notional amount and a contract size exclude each other. */
  function ValidateAmountSize(amount: Value, size: Value): (r: Check)
    ensures r != Pass <==> Truthy(amount) && Truthy(size)
    ensures r != Pass ==> r == Fail(AmountWithSize)
  {
    if Truthy(amount) && Truthy(size) then Fail(AmountWithSize) else Pass
  }

  /**
   Running validators one after another: the first that raises decides the
   error, and the run passes only when all of them pass.
   */
  function FirstFailure(checks: seq<Check>): (r: Check)
    ensures r == Pass <==> forall i :: 0 <= i < |checks| ==> checks[i] == Pass
    ensures r != Pass ==> exists i :: 0 <= i < |checks| && checks[i] == r && forall j :: 0 <= j < i ==> checks[j] == Pass
  {
    if checks == [] then Pass
    else if checks[0] != Pass then checks[0]
    else
      var rest := FirstFailure(checks[1..]);
      assert forall i :: 1 <= i < |checks| ==> checks[i] == checks[1..][i - 1];
      rest
  }
}

=== FILE: values.dfy ===
/**
 The Python values that flow through the client: the order parameters a caller
 passes in and the JSON data the exchange sends back. Python's truthiness test
 (`if x:`) is made explicit by `Truthy`.
 */
module Values {

  /** A Python value as it reaches the client: JSON-compatible data plus `None`. */
  datatype Value =
    | Null
    | Bool(b: bool)
    | Int(i: int)
    | Real(x: real)
    | Str(s: string)
    | List(items: seq<Value>)
    | Dict(fields: map<string, Value>)

  datatype Option<+T> = None | Some(value: T)

  /** Python truthiness: `None`, `False`, `0`, `0.0`, `""` and empty containers are falsy. */
  predicate Truthy(v: Value)
  {
    match v
    case Null => false
    case Bool(b) => b
    case Int(i) => i != 0
    case Real(x) => x != 0.0
    case Str(s) => s != ""
    case List(items) => items != []
    case Dict(fields) => fields != map[]
  }

  /** Python's `v in choices` for a tuple of strings: a value of any other type is never a member. */
  predicate IsOneOf(v: Value, choices: seq<string>)
  {
    v.Str? && v.s in choices
  }

  /** Python's `d.get(key)`: the stored value, or `None` when the key is missing. */
  function Lookup<K>(d: map<K, Value>, key: K): (v: Value)
    ensures key !in d ==> v == Null
    ensures key in d ==> v == d[key]
  {
    if key in d then d[key] else Null
  }

  /**
   The numeric reading Python arithmetic and comparisons give a value:
   `bool` is a subclass of `int`, so `True` and `False` count as 1 and 0;
   every other non-number makes the arithmetic raise.
   */
  function AsNumber(v: Value): (r: Option<real>)
    ensures r.Some? <==> v.Bool? || v.Int? || v.Real?
    ensures v.Bool? ==> r == Some(if v.b then 1.0 else 0.0)
    ensures v.Int? ==> r == Some(v.i as real)
    ensures v.Real? ==> r == Some(v.x)
    ensures r.Some? ==> (r.value != 0.0 <==> Truthy(v))
  {
    match v
    case Bool(b) => Some(if b then 1.0 else 0.0)
    case Int(i) => Some(i as real)
    case Real(x) => Some(x)
    case _ => None
  }

  /** Python's `int(x)` on a float: truncation toward zero. */
  function Trunc(x: real): (n: int)
    ensures 0.0 <= x ==> n as real <= x < n as real + 1.0
    ensures x < 0.0 ==> n as real - 1.0 < x <= n as real
  {
    if 0.0 <= x then x.Floor else -((-x).Floor)
  }
}
